=== FILE: README.md ===
# Sentinel address translator: a Dafny model

The sentinel translator is a small TCP proxy. Clients outside a Docker
network use it to talk to Redis Sentinel. It passes client requests to a
sentinel unchanged. Each reply the sentinel sends back is decoded as one
RESP2 frame. Every bulk string in the reply that names an internal address
is rewritten to the external address clients can reach, and the reply is
encoded again. A chunk that cannot be decoded goes to the client exactly as
it arrived. The table of internal and external addresses is built once, at
startup, from the settings of a `.env` file.

The model has one Dafny module per part of the translator, two more for
the JavaScript built-ins those parts use, and a small `Optional` module
(`optional.dfy`) for the option type they share.

- **Resp** (`resp.dfy`) is the RESP2 codec as functions over a text and a
  cursor position. The readers for `+`, `-`, `:`, `$` and `*` frames, the
  whole-chunk `Parse`, and `Encode` are here. The main results are:
  - the round trip `Parse(Encode(v)) == Ok(v)` for every value the encoder
    can write unambiguously;
  - every decoded value is such a value, so re-encoding what was decoded is
    stable;
  - bulk strings and arrays take exactly the length their header declares.
- **RespCursor** (`resp_cursor.dfy`) is the corrected codec of Resp in the
  source's imperative form. A `ParseState` object holds the cursor, and
  each reader is a method that moves it. Like Resp, and unlike the source,
  its bulk reader checks for a truncated payload and a missing CRLF, and
  its `Parse` rejects trailing data. The array reader pushes one element
  per loop turn, and the encoder appends item encodings to an accumulator.
  Each method is proved to return what the matching Resp function returns
  and to leave the cursor where that function says.
- **RespAsWritten** (`resp_as_written.dfy`) is the decoder as the source
  writes it. Two flaws are kept in it: the bulk payload is clamped and its
  terminator skipped unchecked, and the first frame is returned whatever
  follows it. It shares the line and header readers of Resp, so a missing
  CRLF, a header without digits and a bulk length below -1 are errors here
  too; the source goes on in those cases (see the Resp.ReadLine,
  Resp.ReadLength and Resp.ParseBulkString lines under Left out). It is
  proved to agree with Resp wherever Resp accepts, and concrete inputs
  where the two differ are exhibited (see Findings).
- **Translator** (`translator.dfy`) holds `translateAddress` and
  `translateResponse`. An address is looked up first as an exact key, and
  only a non-empty value counts as a hit. If that fails, the mapping is
  scanned in order for the first entry whose internal host part equals the
  address. The translation keeps the shape of a reply and keeps it
  decodable.
- **Mapping** (`mapping.dfy`) holds `buildMapping`: the primary entry, then
  the replica loop, then the sentinel loop, with the defaults of the source
  and JavaScript's `parseInt`/NaN arithmetic written out.
- **Env** (`env.dfy`) holds the line parsing of `parseEnv`.
- **Proxy** (`proxy.dfy`) holds the upstream `data` handler with its
  try/catch fallback. `Forward` and the method `HandleUpstreamData` use the
  corrected decoder; `ForwardAsWritten` is the handler with the decoder as
  the source writes it, and the two forward the same text on every chunk the
  corrected decoder accepts.
- **JsText** (`js_text.dfy`) holds `trim`, `split`, `join`, `indexOf`,
  `parseInt` and the text of an integral Number.
- **JsObject** (`js_object.dfy`) holds a string-valued JavaScript object. It
  is an ordered list of entries; assignment updates an existing key in place
  and appends a new one, which is the order `Object.entries` reports. Every
  mapping key holds a ':', so no key is an array index, and array-index keys
  are the only ones JavaScript orders differently.

Three behaviours of the source are modelled as the code has them, although
a proxy of this kind would be expected to behave otherwise:

- The mapping is a JavaScript object. A key assigned twice keeps the
  position of its first assignment and the value of its last, so both the
  exact lookup and the scan by host name see the later value (see
  Translator.RepeatedKeyLaterValue). A first-match-wins policy would keep
  the first value. Among different keys that share a host part, the scan
  does take the first in assignment order.
- Chunks are decoded as UTF-8 text, not handled as raw bytes. Bulk lengths
  count the UTF-16 code units of that text, not bytes. The model's
  characters are Unicode code points, which agree with UTF-16 code units
  only inside the Basic Multilingual Plane (see Left out).
- A null array decodes to the same null as a null bulk string, and it is
  re-encoded as `$-1`, not as `*-1`.

## Model

| member | source | states |
|---|---|---|
| Resp.FindCrlf | wip/AI__sentinel-proxy/sentinel-translator.js:82 | the position found is at or after the cursor and holds a CRLF |
| Resp.FindCrlfFirst | wip/AI__sentinel-proxy/sentinel-translator.js:82 | the CRLF found is the first one at or after the cursor; nothing is found only when there is no CRLF there |
| Resp.ReadLine | wip/AI__sentinel-proxy/sentinel-translator.js:82-84 | a line is the text from the cursor up to the first CRLF; the new cursor is just after that CRLF, inside the chunk; it fails, with a missing-CRLF error, exactly when no CRLF follows the cursor |
| Resp.ReadLineNoCrlf | wip/AI__sentinel-proxy/sentinel-translator.js:81-86 | the text of a simple string (or error, or header) never holds a CRLF |
| Resp.ReadLength | wip/AI__sentinel-proxy/sentinel-translator.js:103-105 | a header is the number parseInt reads from the text before the first CRLF after the cursor, and the cursor lands just past that CRLF; it fails exactly when no CRLF follows or parseInt gives NaN |
| Resp.ParseSimpleString | wip/AI__sentinel-proxy/sentinel-translator.js:81-86 | a simple string is the text from the cursor up to the first CRLF after it, and the cursor moves past that CRLF; reading fails exactly when no CRLF follows the cursor |
| Resp.ParseError | wip/AI__sentinel-proxy/sentinel-translator.js:88-93 | an error reply is the text from the cursor up to the first CRLF after it, and the cursor moves past that CRLF; reading fails exactly when no CRLF follows the cursor |
| Resp.ParseInteger | wip/AI__sentinel-proxy/sentinel-translator.js:95-100 | an integer reply holds the number parseInt reads from the text before the first CRLF after the cursor, and the cursor moves past that CRLF |
| Resp.ParseBulkString | wip/AI__sentinel-proxy/sentinel-translator.js:102-114 | the bulk reader yields null only for the header -1, and otherwise a bulk string whose payload is the text just before the CRLF that ends the frame, after the header |
| Resp.ParseArray | wip/AI__sentinel-proxy/sentinel-translator.js:116-130 | the array reader yields null or an array |
| Resp.ParseItems | wip/AI__sentinel-proxy/sentinel-translator.js:125-129 | reading n elements yields exactly n values and never moves the cursor back |
| Resp.ParseValue | wip/AI__sentinel-proxy/sentinel-translator.js:67-79 | a frame decodes only when it starts with one of the five type markers, and its end lies after that marker and inside the chunk |
| Resp.Parse | wip/AI__sentinel-proxy/sentinel-translator.js:62-65 | a chunk decodes only when it is non-empty and starts with a type marker |
| Resp.UnknownMarkerFails | wip/AI__sentinel-proxy/sentinel-translator.js:67-78 | any other leading character, or none at all, is the unknown-type error |
| Resp.BulkTakesDeclaredLength | wip/AI__sentinel-proxy/sentinel-translator.js:102-114 | a decoded bulk string holds exactly as many characters as its header declares, taken right after the header and followed by CRLF |
| Resp.ArrayTakesDeclaredCount | wip/AI__sentinel-proxy/sentinel-translator.js:116-130 | a decoded array holds exactly as many elements as its header declares (none for a negative count) |
| Resp.NullArrayBecomesNullBulk | wip/AI__sentinel-proxy/sentinel-translator.js:121-137 | `*-1` decodes to the null reply, which encodes as `$-1`, not as `*-1` |
| Resp.ParseEncoded | wip/AI__sentinel-proxy/sentinel-translator.js:67-147 | wherever an encoded well-formed value stands in a text, decoding from there reads that value back and stops right after it |
| Resp.RoundTrip | wip/AI__sentinel-proxy/sentinel-translator.js:62-147 | decoding the encoding of a well-formed value gives the value back, as the whole chunk |
| Resp.ParsedWellFormed | wip/AI__sentinel-proxy/sentinel-translator.js:67-130 | every value the decoder yields is well formed, so the encoder writes it unambiguously |
| Resp.Encode | wip/AI__sentinel-proxy/sentinel-translator.js:132-147 | no contract of its own; EncodeFramed states that every encoding is a frame, and RoundTrip that it decodes back to the value |
| Resp.EncodeItems | wip/AI__sentinel-proxy/sentinel-translator.js:140-143 | the elements of an array encode to nothing exactly when there are none |
| Resp.EncodeFramed | wip/AI__sentinel-proxy/sentinel-translator.js:132-147 | every encoding is a frame: at least three characters, starting with a type marker and ending with CRLF |
| Resp.EncodeItemsFramed | wip/AI__sentinel-proxy/sentinel-translator.js:140-143 | the encoded elements of a non-empty array start with a type marker and end with CRLF |
| Resp.ReencodeStable | wip/AI__sentinel-proxy/sentinel-translator.js:62-147 | decoding, encoding and decoding again gives the value the first decoding gave |
| RespCursor.ParseState.constructor | wip/AI__sentinel-proxy/sentinel-translator.js:64 | a fresh cursor starts where it is told to (0 for a chunk) |
| RespCursor.ReadLine | wip/AI__sentinel-proxy/sentinel-translator.js:82-84 | returns the line Resp.ReadLine reads from the old cursor and moves the cursor to just after its CRLF |
| RespCursor.ReadLength | wip/AI__sentinel-proxy/sentinel-translator.js:103-105 | returns the header Resp.ReadLength reads and moves the cursor past it |
| RespCursor.ParseSimpleString | wip/AI__sentinel-proxy/sentinel-translator.js:81-86 | returns the simple string Resp reads from the old cursor and leaves the cursor at its end |
| RespCursor.ParseError | wip/AI__sentinel-proxy/sentinel-translator.js:88-93 | returns the error reply Resp reads from the old cursor and leaves the cursor at its end |
| RespCursor.ParseInteger | wip/AI__sentinel-proxy/sentinel-translator.js:95-100 | returns the integer Resp reads from the old cursor and leaves the cursor at its end |
| RespCursor.ParseBulkString | wip/AI__sentinel-proxy/sentinel-translator.js:102-114 | returns the bulk string or null Resp reads from the old cursor and leaves the cursor at its end |
| RespCursor.ParseArray | wip/AI__sentinel-proxy/sentinel-translator.js:116-130 | the push loop returns the array Resp reads from the old cursor, elements in wire order, and leaves the cursor at its end |
| RespCursor.ParseValue | wip/AI__sentinel-proxy/sentinel-translator.js:67-79 | dispatching on the marker returns the frame Resp.ParseValue reads and leaves the cursor at its end |
| RespCursor.Parse | wip/AI__sentinel-proxy/sentinel-translator.js:62-65 | decoding a chunk with a fresh cursor gives Resp.Parse of the chunk |
| RespCursor.Encode | wip/AI__sentinel-proxy/sentinel-translator.js:132-147 | the accumulating encoder writes Resp.Encode of the value, item encodings in order |
| RespAsWritten.ParseBulkString | wip/AI__sentinel-proxy/sentinel-translator.js:102-114 | as written, a bulk string takes the declared number of characters after its header, cut short at the end of the chunk, and the cursor moves to header end + length + 2 whatever stands there; the length -1 gives null with the cursor after the header |
| RespAsWritten.ParseValue | wip/AI__sentinel-proxy/sentinel-translator.js:67-79 | the reader as written always moves the cursor forward, accepts only a frame that starts with a type marker, and yields well-formed values |
| RespAsWritten.ParseArray | wip/AI__sentinel-proxy/sentinel-translator.js:116-130 | as written, the header -1 gives null and any other header gives an array of as many well-formed elements as it declares (none for a negative length) |
| RespAsWritten.ParseItems | wip/AI__sentinel-proxy/sentinel-translator.js:125-129 | reading n elements as written yields exactly n well-formed values and never moves the cursor back |
| RespAsWritten.Parse | wip/AI__sentinel-proxy/sentinel-translator.js:62-65 | as written a chunk decodes exactly when its first frame does, whatever follows; what decodes starts with a type marker and is well formed |
| RespAsWritten.AgreesOnValue | wip/AI__sentinel-proxy/sentinel-translator.js:67-130 | wherever the corrected reader accepts a frame, the reader as written reads the same value and stops at the same place |
| RespAsWritten.CorrectionOnlyRejects | wip/AI__sentinel-proxy/sentinel-translator.js:62-65 | every chunk the corrected decoder accepts decodes to the same value as written |
| RespAsWritten.TruncatedBulkAccepted | wip/AI__sentinel-proxy/sentinel-translator.js:111-112 | as written `$10\r\nabc` decodes to the bulk `abc`, which encodes as `$3\r\nabc\r\n`; the corrected decoder says truncated |
| RespAsWritten.UncheckedTerminatorAccepted | wip/AI__sentinel-proxy/sentinel-translator.js:112 | as written `$3\r\nabcXY` decodes to `abc`; the corrected decoder reports the missing CRLF |
| RespAsWritten.TrailingReplyIgnored | wip/AI__sentinel-proxy/sentinel-translator.js:62-65 | as written `+OK\r\n+OK\r\n` decodes to the first `OK` alone; the corrected decoder reports trailing data |
| Translator.HostPart | wip/AI__sentinel-proxy/sentinel-translator.js:176 | the host part of an address holds no ':' |
| Translator.HostPartSpec | wip/AI__sentinel-proxy/sentinel-translator.js:176 | the host part is the text before the first ':', or the whole text when it has none |
| Translator.FindHost | wip/AI__sentinel-proxy/sentinel-translator.js:175-181 | the scan answers with the external host of an entry whose internal host matches, and answers nothing only when no entry's does |
| Translator.FindHostFirst | wip/AI__sentinel-proxy/sentinel-translator.js:175-181 | the scan stops at the first matching entry in mapping order |
| Translator.TranslateAddress | wip/AI__sentinel-proxy/sentinel-translator.js:168-184 | the lookup-then-scan loop returns the address AddressFor specifies |
| Translator.ExactMatchWins | wip/AI__sentinel-proxy/sentinel-translator.js:170-172 | an exact key with a non-empty value gives that value |
| Translator.HostMatchFirst | wip/AI__sentinel-proxy/sentinel-translator.js:175-180 | with no exact hit, the first entry whose internal host is the address gives its external host without port |
| Translator.NoMatchUnchanged | wip/AI__sentinel-proxy/sentinel-translator.js:183 | with neither an exact hit nor a host match, the address comes back unchanged |
| Translator.AddressFor | wip/AI__sentinel-proxy/sentinel-translator.js:168-184 | an address is changed only when it is a key of the mapping or the host part of one |
| Translator.UnmappedAddressUnchanged | wip/AI__sentinel-proxy/sentinel-translator.js:168-184 | an address with a port that is not a key is never changed: matches are whole tokens |
| Translator.LongerHostKept | wip/AI__sentinel-proxy/sentinel-translator.js:168-184 | `internal-12:6379` is kept when only `internal-1:6379` is mapped |
| Translator.MappedKeyRewritten | wip/AI__sentinel-proxy/sentinel-translator.js:170-172 | the mapped key `internal-1:6379` becomes its external address |
| Translator.RepeatedKeyLaterValue | wip/AI__sentinel-proxy/sentinel-translator.js:170-181 | a key assigned twice keeps one entry with the later value, so `h:1 -> a:1` then `h:1 -> b:2` sends `h:1` to `b:2` and the bare host `h` to `b` |
| Translator.BareHostOfOnlyEntry | wip/AI__sentinel-proxy/sentinel-translator.js:175-180 | in a one-entry mapping `h:p -> e:q`, the bare host `h` becomes `e` |
| Translator.MappedHostRewritten | wip/AI__sentinel-proxy/sentinel-translator.js:175-180 | the bare host `internal-1` becomes the external host `localhost`, with no port added |
| Translator.BulkTranslated | wip/AI__sentinel-proxy/sentinel-translator.js:152-157 | a bulk string becomes the translation of its text, and is kept when the translation is the same text |
| Translator.TranslateArray | wip/AI__sentinel-proxy/sentinel-translator.js:158-162 | a translated array has the same length, and each element is the translation of the element at the same place |
| Translator.Translate | wip/AI__sentinel-proxy/sentinel-translator.js:151-166 | translation changes only bulk-string texts: kinds, array lengths and order, and all other values stay as they were |
| Translator.TranslateWellFormed | wip/AI__sentinel-proxy/sentinel-translator.js:151-166 | a translated well-formed reply is still well formed, so its encoding decodes back |
| Translator.EmptyMappingKeepsReply | wip/AI__sentinel-proxy/sentinel-translator.js:151-166 | with an empty mapping every reply is kept as it is |
| JsObject.Get | wip/AI__sentinel-proxy/sentinel-translator.js:170 | reading a key gives a value exactly when the object has that key |
| JsObject.ValueOr | wip/AI__sentinel-proxy/sentinel-translator.js:25-30 | a key defaults when it is missing or empty: the result is the non-empty value stored under the key, and otherwise the default, so a non-empty default never yields an empty text |
| JsObject.Put | wip/AI__sentinel-proxy/sentinel-translator.js:42 | assigning a key the object has keeps its size; a new key adds one entry |
| JsObject.PutGet | wip/AI__sentinel-proxy/sentinel-translator.js:15 | after an assignment the key reads as the value assigned, and every other key reads as before |
| JsObject.PutNew | wip/AI__sentinel-proxy/sentinel-translator.js:31 | assigning a new key appends it at the end |
| JsObject.PutExisting | wip/AI__sentinel-proxy/sentinel-translator.js:54 | assigning an existing key replaces its value where it stands |
| JsObject.PutAllGet | wip/AI__sentinel-proxy/sentinel-translator.js:11-17 | after a run of assignments a key holds its last assigned value, or its old one when none assigned it |
| Mapping.GroupWrites | wip/AI__sentinel-proxy/sentinel-translator.js:38-43 | a group's loop makes one assignment for each turn `i` that passes the loop test `i < count`, so none for a NaN or non-positive count |
| Mapping.BuildMapping | wip/AI__sentinel-proxy/sentinel-translator.js:23-58 | the primary assignment and the two loops build the object that making all assignments in order gives |
| Mapping.MemberKeyHost | wip/AI__sentinel-proxy/sentinel-translator.js:39-42 | a replica or sentinel host name holds no ':' and is the host part of its key |
| Mapping.MemberKeysDistinct | wip/AI__sentinel-proxy/sentinel-translator.js:38-43 | different members of one group get different keys |
| Mapping.ReplicaNotSentinel | wip/AI__sentinel-proxy/sentinel-translator.js:39-51 | no replica key is a sentinel key |
| Mapping.ReplicaMapped | wip/AI__sentinel-proxy/sentinel-translator.js:38-43 | replica i maps `replica-(i+1):<replica port>` to the external host and port start+i |
| Mapping.SentinelMapped | wip/AI__sentinel-proxy/sentinel-translator.js:50-55 | sentinel i maps `sentinel-(i+1):<sentinel port>` to the external host and port start+i |
| Mapping.PrimaryKeyFirst | wip/AI__sentinel-proxy/sentinel-translator.js:31 | the first key of the mapping is always the primary's |
| Mapping.WritesUnique | wip/AI__sentinel-proxy/sentinel-translator.js:23-58 | when the primary's key is its own, all assigned keys differ |
| Mapping.MappingExact | wip/AI__sentinel-proxy/sentinel-translator.js:23-58 | when the primary's key is its own, the mapping is the assignments in order: primary, replicas, sentinels, 1 + replicas + sentinels entries |
| Mapping.DefaultMapping | wip/AI__sentinel-proxy/sentinel-translator.js:25-55 | with no settings the mapping is the single entry `primary:6379 -> localhost:6379` |
| Env.ParseEnv | wip/AI__sentinel-proxy/sentinel-translator.js:11-17 | the line loop builds the object that assigning each line's setting in order gives |
| Env.LineEntry | wip/AI__sentinel-proxy/sentinel-translator.js:12-15 | a line sets nothing exactly when it is blank after trimming or starts with '#'; a setting's key holds no '=', and neither key nor value has white space at its ends |
| Env.SkippedLines | wip/AI__sentinel-proxy/sentinel-translator.js:12-13 | blank, white-space-only and `#` comment lines set nothing |
| Env.LineSplitsAtFirstEquals | wip/AI__sentinel-proxy/sentinel-translator.js:14-15 | a setting line splits at its first '=' into trimmed key and trimmed value; a line with no '=' sets its text to the empty value |
| Env.LastSettingWins | wip/AI__sentinel-proxy/sentinel-translator.js:15 | each key holds the value its last setting line gives it |
| Env.SettingLine | wip/AI__sentinel-proxy/sentinel-translator.js:14-15 | a line `KEY=VALUE` with trimmed sides and no '=' in KEY sets KEY to VALUE |
| Env.ValueKeepsLaterEquals | wip/AI__sentinel-proxy/sentinel-translator.js:14-15 | `URL=a=b` sets URL to `a=b` |
| Proxy.HandleUpstreamData | wip/AI__sentinel-proxy/sentinel-translator.js:227-238 | the handler writes what Forward specifies: the translated re-encoding, or the chunk itself on a decode error |
| Proxy.Forward | wip/AI__sentinel-proxy/sentinel-translator.js:228-237 | a chunk that does not decode is forwarded unchanged; one that decodes is forwarded as one frame that decodes to the translated reply |
| Proxy.ForwardAsWritten | wip/AI__sentinel-proxy/sentinel-translator.js:228-237 | as written, a chunk whose first frame decodes is forwarded as one frame that decodes to the translation of that first reply; any other chunk is forwarded unchanged |
| Proxy.NothingDropped | wip/AI__sentinel-proxy/sentinel-translator.js:228-237 | the client receives the chunk itself, or one whole frame for a chunk that held exactly one frame |
| Proxy.EmptyMappingForwardsSameReply | wip/AI__sentinel-proxy/sentinel-translator.js:229-231 | with an empty mapping a decodable chunk is forwarded as the canonical encoding of the same reply |
| Proxy.SameForwardWhenDecodable | wip/AI__sentinel-proxy/sentinel-translator.js:228-237 | on every chunk the corrected decoder accepts, the handler as written forwards the same text |
| Proxy.SecondReplyDropped | wip/AI__sentinel-proxy/sentinel-translator.js:229 | as written a chunk with two `+OK` replies is forwarded as one; corrected, it passes through whole |
| Proxy.TruncatedReplyCompleted | wip/AI__sentinel-proxy/sentinel-translator.js:229-232 | as written the partial reply `$10\r\nabc` is forwarded as the complete `$3\r\nabc\r\n`; corrected, it passes through unchanged |
| JsText.IndexOf | wip/AI__sentinel-proxy/sentinel-translator.js:14 | the index found holds the character and no earlier one does; none is found only when the text lacks it |
| JsText.Split | wip/AI__sentinel-proxy/sentinel-translator.js:14 | a split yields at least one piece and no piece holds the separator |
| JsText.SplitAtFirst | wip/AI__sentinel-proxy/sentinel-translator.js:14-15 | the first piece is the text before the first separator, and the rest joined back is the text after it |
| JsText.JoinSplit | wip/AI__sentinel-proxy/sentinel-translator.js:14-15 | joining the pieces of a split with the separator gives the text back |
| JsText.Trim | wip/AI__sentinel-proxy/sentinel-translator.js:12-15 | trimming keeps the piece of the text between its leading and trailing white space: only white space is dropped, and neither end of the result is white space |
| JsText.ParseInt | wip/AI__sentinel-proxy/sentinel-translator.js:34-36 | no contract of its own; ParseIntOfDigits, ParseIntOfNegatedDigits and ParseIntToString state what it reads |
| JsText.ParseIntOfDigits | wip/AI__sentinel-proxy/sentinel-translator.js:97 | parseInt reads a run of digits as its decimal value |
| JsText.ParseIntOfNegatedDigits | wip/AI__sentinel-proxy/sentinel-translator.js:97 | parseInt reads a minus sign followed by a run of digits as the negated decimal value |
| JsText.ParseIntToString | wip/AI__sentinel-proxy/sentinel-translator.js:136 | parseInt reads back the text of every integer, so encoded integers and lengths decode to themselves |

## Left out

- Sockets, the listening server, the client-to-sentinel pass-through
  (lines 199-224), connection and close handling, and console logging are
  I/O and are not modelled.
- The file read of `parseEnv` and the reading of `process.env` and the
  command line are I/O. Env.ParseEnv starts from the file's text.
- Converting chunks between Buffer and UTF-8 text is not modelled: a chunk
  is its decoded text.
- Resp.BulkTakesDeclaredLength: lengths count characters of the model,
  which are code points. JavaScript's `.length` and `substring` count UTF-16
  code units, so a payload with a character outside the Basic Multilingual
  Plane (an emoji, say) has a different length in the source; the model
  agrees with the source on text inside that plane, which includes ASCII.
- JsText.Trim: white space is the ASCII white space (space, tab, LF, VT,
  FF, CR). JavaScript's `trim` and `parseInt` also skip U+00A0, U+FEFF,
  U+2028, U+2029 and the other Unicode space separators, so a setting line or
  a header padded with those reads differently in the source.
- Resp.ReadLine: a missing CRLF is an error, so the chunk passes through. In
  the source, `indexOf` returns -1, `substring(pos, -1)` takes the text
  before the cursor, and the cursor jumps to 1. For `+OK` the source would
  forward `++\r\n`.
- Resp.ReadLength: a header or integer without digits is an error. In the
  source `parseInt` gives NaN, and the code goes on with it: an integer
  reply is forwarded as `:NaN`, and a bulk read uses a NaN cursor.
- Resp.ParseInteger: integers are exact. JavaScript Numbers lose
  precision above 2^53 and print in exponent notation from 10^21; neither is
  modelled.
- Resp.ParseBulkString: a bulk length below -1 is an error. In the source
  `substring` swaps its arguments and the cursor moves backwards, which can
  recurse without end.
- Mapping.PortText: the port `start + i` is printed exactly. Number
  rounding and exponent notation of very large ports are not modelled.
- The end of each port range (`endPort`, `sentinelEnd`) is parsed by the
  source but never used; the model does not parse it.
- JsObject.Get reads own properties only. The properties JavaScript objects
  inherit (`constructor`, `toString`, `__proto__`, …) are not modelled, nor
  the special assignment of the key `__proto__`. In the source,
  `mapping[addr]` finds these for a bulk string with one of those names.
- Mapping.MappingExact: the exact shape of the mapping is proved only when
  the primary's key is not also a replica or sentinel key. Otherwise the
  later assignment updates the primary's entry in place. ReplicaMapped and
  SentinelMapped hold without this condition.
- The decoder has no depth limit. The source's parser recurses once per
  nesting level, so a deeply enough nested array overflows the call stack
  in Node; the catch at line 234 then passes the chunk through unchanged,
  where the model decodes, translates and re-encodes it.
- The `throw` of an unknown type in `encode` (line 145) cannot happen,
  because the Value datatype has only the kinds the decoder produces.

## Findings

| source | as written | input that shows it | evidently intended | confidence | as-written member | corrected member |
|---|---|---|---|---|---|---|
| wip/AI__sentinel-proxy/sentinel-translator.js:111 | the payload is `substring(pos, pos + length)`, which stops quietly at the end of the chunk | `$10\r\nabc` decodes to the bulk `abc` and is forwarded as `$3\r\nabc\r\n`, a complete reply the sentinel never sent | a bulk string shorter than its header declares is a decode error, so the chunk passes through unchanged | not executed | RespAsWritten.TruncatedBulkAccepted | Resp.BulkTakesDeclaredLength |
| wip/AI__sentinel-proxy/sentinel-translator.js:112 | the cursor moves `length + 2` without checking that the two skipped characters are CRLF | `$3\r\nabcXY` decodes to the bulk `abc` | a payload not followed by CRLF is a decode error | not executed | RespAsWritten.UncheckedTerminatorAccepted | Resp.BulkTakesDeclaredLength |
| wip/AI__sentinel-proxy/sentinel-translator.js:62-65 | `parse` returns the first frame and ignores what follows it, so the handler forwards only that frame | `+OK\r\n+OK\r\n` is forwarded as `+OK\r\n`, and the second reply is lost | a chunk holding more than one frame is not replaced by its first frame; it passes through whole | not executed | Proxy.SecondReplyDropped | Proxy.NothingDropped |

=== FILE: env.dfy ===
/** The line parsing of the environment file (parseEnv without the file
    read): one `KEY=value` setting per line, blank lines and `#` comments
    skipped, both sides trimmed, a later setting of a key overriding an
    earlier one. */
module Env {
  import opened Optional
  import opened JsText
  import opened JsObject

  /** The setting one line makes, if any: the trimmed line must be non-empty
      and not start with '#'; the key is the trimmed text before the first
      '=', the value the trimmed rest joined back with '='. A setting has a
      key without '=' and neither side has white space at its ends. */
  function LineEntry(line: string): (r: Option<(string, string)>)
    ensures r.None? <==> Trim(line) == [] || Trim(line)[0] == '#'
    ensures r.Some? ==> '=' !in r.value.0 && TrimmedEnds(r.value.0) && TrimmedEnds(r.value.1)
  {
    var t := Trim(line);
    if t == [] || t[0] == '#' then None
    else
      var parts := Split(t, '=');
      var key := Trim(parts[0]);
      assert '=' !in key by {
        var a := |parts[0]| - |TrimStart(parts[0])|;
        forall i | 0 <= i < |key|
          ensures key[i] != '='
        {
          assert key[i] == parts[0][a + i];
        }
      }
      Some((key, Trim(Join(parts[1..], '='))))
  }

  /** The settings of the lines, in line order. */
  function Settings(lines: seq<string>): Entries {
    if lines == [] then []
    else
      var init := Settings(lines[..|lines| - 1]);
      match LineEntry(lines[|lines| - 1])
      case None => init
      case Some(e) => init + [e]
  }

  /** The object parseEnv returns for the text of the file. */
  function EnvOf(text: string): Entries {
    PutAll([], Settings(Split(text, '\n')))
  }

  /** parseEnv after the file read: each line of the text, in order, either
      assigns its setting to `env` or is skipped. */
  method ParseEnv(text: string) returns (env: Entries)
    ensures env == EnvOf(text)
  {
    env := [];
    var lines := Split(text, '\n');
    for n := 0 to |lines|
      invariant env == PutAll([], Settings(lines[..n]))
    {
      LineStep(lines, n);
      var line := Trim(lines[n]);
      if line != [] && line[0] != '#' {
        var parts := Split(line, '=');
        var key := parts[0];
        var valueParts := parts[1..];
        env := Put(env, Trim(key), Trim(Join(valueParts, '=')));
      }
    }
    assert lines[..|lines|] == lines;
  }

  /** One more line either assigns its setting or leaves the object as it is. */
  lemma LineStep(lines: seq<string>, n: nat)
    requires n < |lines|
    ensures PutAll([], Settings(lines[..n + 1])) ==
              match LineEntry(lines[n])
              case None => PutAll([], Settings(lines[..n]))
              case Some(e) => Put(PutAll([], Settings(lines[..n])), e.0, e.1)
  {
    assert lines[..n + 1][..n] == lines[..n];
    if LineEntry(lines[n]).Some? {
      PutAllSnoc([], Settings(lines[..n]), LineEntry(lines[n]).value);
    }
  }

  /** Blank lines, lines of white space and comment lines set nothing. */
  lemma SkippedLines(line: string)
    requires Trim(line) == [] || Trim(line)[0] == '#'
    ensures LineEntry(line).None?
  {
  }

  /** A line that sets something splits at its first '=': the key is the
      trimmed text before it, and the value is the trimmed text after it,
      later '=' signs included. A line without '=' sets its whole trimmed
      text as a key with the empty value. */
  lemma LineSplitsAtFirstEquals(line: string)
    requires Trim(line) != [] && Trim(line)[0] != '#'
    ensures var t := Trim(line);
            match IndexOf(t, '=')
            case Some(i) => LineEntry(line) == Some((Trim(t[..i]), Trim(t[i + 1..])))
            case None => LineEntry(line) == Some((Trim(t), ""))
  {
    var t := Trim(line);
    SplitAtFirst(t, '=');
    if IndexOf(t, '=').None? {
      assert Split(t, '=')[1..] == [];
      assert Trim("") == "";
    }
  }

  /** Every key of the object is set by some line, and holds the value its
      last setting line gives it; a later line for the same key overrides
      an earlier one. */
  lemma LastSettingWins(text: string, k: string)
    ensures Get(EnvOf(text), k) == LastValue(Settings(Split(text, '\n')), k)
  {
    PutAllGet([], Settings(Split(text, '\n')), k);
  }

  lemma TrimKeeps(s: string)
    requires TrimmedEnds(s)
    ensures Trim(s) == s
  {
  }

  /** A line `KEY=VALUE` sets KEY to VALUE, when the key is not empty, holds
      no '=', does not start a comment, and neither side has white space at
      its ends; VALUE may hold more '=' signs. */
  lemma SettingLine(k: string, v: string)
    requires k != [] && '=' !in k && k[0] != '#'
    requires TrimmedEnds(k) && TrimmedEnds(v)
    ensures LineEntry(k + "=" + v) == Some((k, v))
  {
    var t := k + "=" + v;
    assert t[0] == k[0];
    assert t[|t| - 1] == if v == [] then '=' else v[|v| - 1];
    TrimKeeps(t);
    TrimKeeps(k);
    TrimKeeps(v);
    SplitFirstPiece(k, '=', v);
    SplitAtFirst(t, '=');
    assert t[|k|] == '=';
    assert IndexOf(t, '=') == Some(|k|);
    assert t[|k| + 1..] == v;
  }

  /** A value keeps every '=' after the first: `URL=a=b` sets URL to `a=b`. */
  lemma ValueKeepsLaterEquals()
    ensures LineEntry("URL=a=b") == Some(("URL", "a=b"))
  {
    assert "URL" + "=" + "a=b" == "URL=a=b";
    SettingLine("URL", "a=b");
  }
}

=== FILE: js_object.dfy ===
/** A plain JavaScript object whose property values are strings, as the
    translator uses one for the parsed environment and for the address
    mapping. It is an ordered list of (key, value) entries in the order the
    keys were first assigned, which is the order Object.entries reports for
    keys that are not array indices. */
module JsObject {
  import opened Optional
  import opened JsText

  type Entries = seq<(string, string)>

  predicate HasKey(o: Entries, k: string) {
    exists i :: 0 <= i < |o| && o[i].0 == k
  }

  predicate UniqueKeys(o: Entries) {
    forall i, j :: 0 <= i < j < |o| ==> o[i].0 != o[j].0
  }

  /** `o[k]`: the value of the first entry with key `k`; None for undefined. */
  function Get(o: Entries, k: string): (r: Option<string>)
    ensures r.None? <==> !HasKey(o, k)
  {
    if o == [] then None
    else if o[0].0 == k then Some(o[0].1)
    else
      assert forall i :: 1 <= i < |o| ==> o[i] == o[1..][i - 1];
      Get(o[1..], k)
  }

  /** `o[k] || d`: a missing key and an empty string both give `d`; a
      non-empty value stored under `k` is returned as it is. */
  function ValueOr(o: Entries, k: string, d: string): (r: string)
    ensures r == d || Get(o, k) == Some(r)
    ensures Get(o, k).Some? && Get(o, k).value != "" ==> r == Get(o, k).value
    ensures d != "" ==> r != ""
  {
    match Get(o, k)
    case Some(v) => if v != "" then v else d
    case None => d
  }

  /** `o[k] = v`: an existing key takes the new value in its place, a new key
      is appended. */
  function Put(o: Entries, k: string, v: string): (r: Entries)
    ensures |r| == if HasKey(o, k) then |o| else |o| + 1
  {
    if o == [] then [(k, v)]
    else if o[0].0 == k then [(k, v)] + o[1..]
    else
      assert forall i :: 1 <= i < |o| ==> o[i] == o[1..][i - 1];
      assert HasKey(o[1..], k) ==> o[1 + 0].0 == k || HasKey(o, k);
      [o[0]] + Put(o[1..], k, v)
  }

  /** The entries written one after the other, in order. */
  function PutAll(o: Entries, es: Entries): Entries {
    if es == [] then o
    else Put(PutAll(o, es[..|es| - 1]), es[|es| - 1].0, es[|es| - 1].1)
  }

  /** The value the last write to `k` among `es` gives it, if any does. */
  function LastValue(es: Entries, k: string): Option<string> {
    if es == [] then None
    else if es[|es| - 1].0 == k then Some(es[|es| - 1].1)
    else LastValue(es[..|es| - 1], k)
  }

  /** The first entry with key `k` holds the value read. */
  lemma {:induction false} GetAt(o: Entries, k: string, i: nat)
    requires i < |o| && o[i].0 == k
    requires forall j :: 0 <= j < i ==> o[j].0 != k
    ensures Get(o, k) == Some(o[i].1)
  {
    if i > 0 {
      GetAt(o[1..], k, i - 1);
    }
  }

  /** Reading a key right after writing it gives the value written; other
      keys read as before. */
  lemma {:induction false} PutGet(o: Entries, k: string, v: string, k': string)
    ensures Get(Put(o, k, v), k') == if k' == k then Some(v) else Get(o, k')
  {
    if o != [] && o[0].0 != k {
      PutGet(o[1..], k, v, k');
    }
  }

  /** Writing a new key appends it. */
  lemma {:induction false} PutNew(o: Entries, k: string, v: string)
    requires !HasKey(o, k)
    ensures Put(o, k, v) == o + [(k, v)]
  {
    if o != [] {
      assert !HasKey(o[1..], k) by {
        forall i | 0 <= i < |o[1..]|
          ensures o[1..][i].0 != k
        {
          assert o[1..][i] == o[i + 1];
        }
      }
      PutNew(o[1..], k, v);
      assert o == [o[0]] + o[1..];
    }
  }

  /** Writing an existing key updates the entry in place: every entry keeps
      its position. */
  lemma {:induction false} PutExisting(o: Entries, k: string, v: string, i: nat)
    requires i < |o| && o[i].0 == k
    requires forall j :: 0 <= j < i ==> o[j].0 != k
    ensures Put(o, k, v) == o[i := (k, v)]
  {
    if i > 0 {
      PutExisting(o[1..], k, v, i - 1);
      assert o[i := (k, v)] == [o[0]] + o[1..][i - 1 := (k, v)];
    }
  }

  /** A write never moves a key: the keys already there keep their places. */
  lemma {:induction false} PutKeepsKeys(o: Entries, k: string, v: string)
    ensures |o| <= |Put(o, k, v)|
    ensures forall i :: 0 <= i < |o| ==> Put(o, k, v)[i].0 == o[i].0
  {
    if o != [] && o[0].0 != k {
      PutKeepsKeys(o[1..], k, v);
      forall i | 0 <= i < |o|
        ensures Put(o, k, v)[i].0 == o[i].0
      {
        if i > 0 {
          assert Put(o, k, v)[i] == Put(o[1..], k, v)[i - 1];
        }
      }
    }
  }

  /** Writes keep the keys unique. */
  lemma PutUnique(o: Entries, k: string, v: string)
    requires UniqueKeys(o)
    ensures UniqueKeys(Put(o, k, v))
  {
    if HasKey(o, k) {
      var i :| 0 <= i < |o| && o[i].0 == k;
      PutExisting(o, k, v, i);
    } else {
      PutNew(o, k, v);
    }
  }

  /** After a run of writes, a key holds the value of its last write, or its
      old value when none of the writes is to it. */
  lemma {:induction false} PutAllGet(o: Entries, es: Entries, k: string)
    ensures Get(PutAll(o, es), k) == if LastValue(es, k).Some? then LastValue(es, k) else Get(o, k)
  {
    if es != [] {
      var last := es[|es| - 1];
      PutAllGet(o, es[..|es| - 1], k);
      PutGet(PutAll(o, es[..|es| - 1]), last.0, last.1, k);
    }
  }

  /** The last write to `k` is the one at `i` when no later entry has key `k`. */
  lemma {:induction false} LastValueAt(es: Entries, k: string, i: nat)
    requires i < |es| && es[i].0 == k
    requires forall j :: i < j < |es| ==> es[j].0 != k
    ensures LastValue(es, k) == Some(es[i].1)
  {
    if i < |es| - 1 {
      LastValueAt(es[..|es| - 1], k, i);
    }
  }

  /** The last write to `k` in `pre + xs + post` is the one at `i` of `xs`
      when no later entry of `xs` and no entry of `post` writes `k`. */
  lemma LastValueInRun(pre: Entries, xs: Entries, post: Entries, k: string, i: nat)
    requires i < |xs| && xs[i].0 == k
    requires forall j :: i < j < |xs| ==> xs[j].0 != k
    requires forall j :: 0 <= j < |post| ==> post[j].0 != k
    ensures LastValue(pre + xs + post, k) == Some(xs[i].1)
  {
    var es := pre + xs + post;
    forall j | |pre| + i < j < |es|
      ensures es[j].0 != k
    {
      if j < |pre| + |xs| {
        assert es[j] == xs[j - |pre|];
      } else {
        assert es[j] == post[j - |pre| - |xs|];
      }
    }
    LastValueAt(es, k, |pre| + i);
  }

  /** Two runs of unique keys, none shared, make a run of unique keys. */
  lemma UniqueConcat(a: Entries, b: Entries)
    requires UniqueKeys(a) && UniqueKeys(b)
    requires forall i, j :: 0 <= i < |a| && 0 <= j < |b| ==> a[i].0 != b[j].0
    ensures UniqueKeys(a + b)
  {
    var ab := a + b;
    forall i, j | 0 <= i < j < |ab|
      ensures ab[i].0 != ab[j].0
    {
      if j < |a| {
        assert ab[i] == a[i] && ab[j] == a[j];
      } else if i < |a| {
        assert ab[i] == a[i] && ab[j] == b[j - |a|];
      } else {
        assert ab[i] == b[i - |a|] && ab[j] == b[j - |a|];
      }
    }
  }

  /** Writing one more entry at the end is one more Put. */
  lemma PutAllSnoc(o: Entries, es: Entries, e: (string, string))
    ensures PutAll(o, es + [e]) == Put(PutAll(o, es), e.0, e.1)
  {
    assert (es + [e])[..|es|] == es;
  }

  /** Writing one more entry of a run `xs` after a prefix `pre`. */
  lemma PutAllStep(o: Entries, pre: Entries, xs: Entries, i: nat)
    requires i < |xs|
    ensures PutAll(o, pre + xs[..i + 1]) == Put(PutAll(o, pre + xs[..i]), xs[i].0, xs[i].1)
  {
    assert pre + xs[..i + 1] == (pre + xs[..i]) + [xs[i]];
    PutAllSnoc(o, pre + xs[..i], xs[i]);
  }

  /** Writing entries whose keys are all different into an empty object
      gives exactly those entries, in that order. */
  lemma {:induction false} PutAllDistinct(es: Entries)
    requires UniqueKeys(es)
    ensures PutAll([], es) == es
  {
    if es != [] {
      var init := es[..|es| - 1];
      var last := es[|es| - 1];
      PutAllDistinct(init);
      assert !HasKey(init, last.0) by {
        forall i | 0 <= i < |init|
          ensures init[i].0 != last.0
        {
          assert init[i] == es[i];
        }
      }
      PutNew(init, last.0, last.1);
      assert init + [last] == es;
    }
  }

  /** The first key written stays the first key, whatever follows. */
  lemma {:induction false} PutAllFirstKey(e: (string, string), es: Entries)
    ensures |PutAll([], [e] + es)| >= 1 && PutAll([], [e] + es)[0].0 == e.0
  {
    if es == [] {
      assert [e] + es == [e];
      assert [e][..0] == [];
    } else {
      var init := es[..|es| - 1];
      var last := es[|es| - 1];
      PutAllFirstKey(e, init);
      assert ([e] + es)[..|es|] == [e] + init;
      PutKeepsKeys(PutAll([], [e] + init), last.0, last.1);
    }
  }
}

=== FILE: js_text.dfy ===
/** Models of the JavaScript built-ins the translator leans on: String.prototype
    trim, indexOf, split and Array.prototype.join over single-character
    separators, the global parseInt called without a radix, and the decimal
    text of an integral Number. A character is a Unicode code point, where
    JavaScript counts UTF-16 code units; the two agree inside the Basic
    Multilingual Plane. White space is the ASCII white space. */
module JsText {
  import opened Optional

  /** The white-space characters trim and parseInt skip (the ASCII ones). */
  predicate IsSpace(c: char) {
    c == ' ' || c == '\t' || c == '\n' || c == '\r' || c == '\U{000B}' || c == '\U{000C}'
  }

  predicate IsDigit(c: char) { '0' <= c <= '9' }

  predicate AllDigits(s: string) { forall i :: 0 <= i < |s| ==> IsDigit(s[i]) }

  /** Drops leading white space. */
  function TrimStart(s: string): string {
    if s != [] && IsSpace(s[0]) then TrimStart(s[1..]) else s
  }

  /** Drops trailing white space. */
  function TrimEnd(s: string): string {
    if s != [] && IsSpace(s[|s| - 1]) then TrimEnd(s[..|s| - 1]) else s
  }

  /** TrimStart removes exactly the white space in front: what is left is a
      suffix that is empty or starts with a non-space. */
  lemma {:induction false} TrimStartSpec(s: string)
    ensures var r := TrimStart(s);
            |r| <= |s| && r == s[|s| - |r|..] &&
            (forall i :: 0 <= i < |s| - |r| ==> IsSpace(s[i])) &&
            (r == [] || !IsSpace(r[0]))
  {
    if s != [] && IsSpace(s[0]) {
      var t := s[1..];
      TrimStartSpec(t);
      var r := TrimStart(t);
      assert TrimStart(s) == r;
      assert t[|t| - |r|..] == s[|s| - |r|..];
      forall i | 0 <= i < |s| - |r|
        ensures IsSpace(s[i])
      {
        if i > 0 {
          assert s[i] == t[i - 1];
        }
      }
    }
  }

  /** TrimEnd removes exactly the white space at the end. */
  lemma {:induction false} TrimEndSpec(s: string)
    ensures var r := TrimEnd(s);
            |r| <= |s| && r == s[..|r|] &&
            (forall i :: |r| <= i < |s| ==> IsSpace(s[i])) &&
            (r == [] || !IsSpace(r[|r| - 1]))
  {
    if s != [] && IsSpace(s[|s| - 1]) {
      var t := s[..|s| - 1];
      TrimEndSpec(t);
      var r := TrimEnd(t);
      assert TrimEnd(s) == r;
      assert t[..|r|] == s[..|r|];
      forall i | |r| <= i < |s|
        ensures IsSpace(s[i])
      {
        if i < |s| - 1 {
          assert s[i] == t[i];
        }
      }
    }
  }

  /** Neither end of the text is white space. */
  predicate TrimmedEnds(s: string) {
    s == [] || (!IsSpace(s[0]) && !IsSpace(s[|s| - 1]))
  }

  /** Every character of `s` from `from` up to `to` is white space. */
  ghost predicate Spaces(s: string, from: int, to: int) {
    forall i :: 0 <= from <= i < to <= |s| ==> IsSpace(s[i])
  }

  /** String.prototype.trim: the result is the piece of the text that starts
      where TrimStart stops, has no white space at either end, and leaves
      only white space before and after it. */
  function Trim(s: string): (r: string)
    ensures var a := |s| - |TrimStart(s)|;
            0 <= a && a + |r| <= |s| && r == s[a..a + |r|] && TrimmedEnds(r) &&
            Spaces(s, 0, a) && Spaces(s, a + |r|, |s|)
  {
    TrimStartSpec(s);
    TrimEndSpec(TrimStart(s));
    TrimEnd(TrimStart(s))
  }

  /** String.prototype.indexOf for one character, None standing for -1. */
  function IndexOf(s: string, c: char): (r: Option<nat>)
    ensures r.Some? ==> r.value < |s| && s[r.value] == c && forall j :: 0 <= j < r.value ==> s[j] != c
    ensures r.None? ==> forall j :: 0 <= j < |s| ==> s[j] != c
  {
    if s == [] then None
    else if s[0] == c then Some(0)
    else match IndexOf(s[1..], c)
      case None => None
      case Some(i) => Some(i + 1)
  }

  /** String.prototype.split on a one-character separator: the pieces between
      separators, so "" splits into [""] and "a=" into ["a", ""]. */
  function Split(s: string, sep: char): (parts: seq<string>)
    ensures |parts| >= 1
    ensures forall i :: 0 <= i < |parts| ==> sep !in parts[i]
    decreases |s|
  {
    match IndexOf(s, sep)
    case None => [s]
    case Some(i) => [s[..i]] + Split(s[i + 1..], sep)
  }

  /** Array.prototype.join with a one-character separator. */
  function Join(parts: seq<string>, sep: char): string {
    if parts == [] then ""
    else if |parts| == 1 then parts[0]
    else parts[0] + [sep] + Join(parts[1..], sep)
  }

  /** Joining the pieces of a split gives the text back. */
  lemma {:induction false} JoinSplit(s: string, sep: char)
    ensures Join(Split(s, sep), sep) == s
    decreases |s|
  {
    match IndexOf(s, sep)
    case None =>
    case Some(i) =>
      var rest := Split(s[i + 1..], sep);
      JoinSplit(s[i + 1..], sep);
      var parts := [s[..i]] + rest;
      assert Split(s, sep) == parts;
      assert parts[0] == s[..i] && parts[1..] == rest;
      assert Join(parts, sep) == s[..i] + [sep] + Join(rest, sep);
      assert s == s[..i] + [sep] + s[i + 1..];
  }

  /** The first piece of a split is the text before the first separator, and
      the other pieces joined back are the text after it. */
  lemma SplitAtFirst(s: string, sep: char)
    ensures IndexOf(s, sep).None? ==> Split(s, sep) == [s]
    ensures IndexOf(s, sep).Some? ==>
              var i := IndexOf(s, sep).value;
              Split(s, sep)[0] == s[..i] && Join(Split(s, sep)[1..], sep) == s[i + 1..]
  {
    if IndexOf(s, sep).Some? {
      JoinSplit(s[IndexOf(s, sep).value + 1..], sep);
    }
  }

  /** A piece free of the separator, followed by the separator, is split off first. */
  lemma SplitFirstPiece(h: string, sep: char, rest: string)
    requires sep !in h
    ensures Split(h + [sep] + rest, sep)[0] == h
  {
    var s := h + [sep] + rest;
    assert s[|h|] == sep;
    assert IndexOf(s, sep) == Some(|h|);
    assert s[..|h|] == h;
  }

  /** The value of a decimal digit character. */
  function DigitValue(c: char): int {
    (c as int) - ('0' as int)
  }

  function DigitChar(k: nat): (c: char)
    requires k < 10
    ensures IsDigit(c) && DigitValue(c) == k
  {
    ('0' as int + k) as char
  }

  /** The longest prefix made of decimal digits. */
  function DigitPrefix(s: string): string {
    if s != [] && IsDigit(s[0]) then [s[0]] + DigitPrefix(s[1..]) else []
  }

  /** The number a string of decimal digits denotes. */
  function DecimalValue(d: string): int {
    if d == [] then 0 else DecimalValue(d[..|d| - 1]) * 10 + DigitValue(d[|d| - 1])
  }

  predicate IsHexDigit(c: char) {
    IsDigit(c) || 'a' <= c <= 'f' || 'A' <= c <= 'F'
  }

  function HexDigitValue(c: char): int {
    if IsDigit(c) then DigitValue(c)
    else if 'a' <= c <= 'f' then (c as int) - ('a' as int) + 10
    else (c as int) - ('A' as int) + 10
  }

  /** The longest prefix made of hexadecimal digits. */
  function HexPrefix(s: string): string {
    if s != [] && IsHexDigit(s[0]) then [s[0]] + HexPrefix(s[1..]) else []
  }

  function HexValue(h: string): int {
    if h == [] then 0 else HexValue(h[..|h| - 1]) * 16 + HexDigitValue(h[|h| - 1])
  }

  /** DigitPrefix is the longest run of digits the text starts with. */
  lemma {:induction false} DigitPrefixSpec(s: string)
    ensures var d := DigitPrefix(s);
            |d| <= |s| && d == s[..|d|] && AllDigits(d) && (|d| < |s| ==> !IsDigit(s[|d|]))
  {
    if s != [] && IsDigit(s[0]) {
      DigitPrefixSpec(s[1..]);
    }
  }

  /** The value of a run of digits is never negative. */
  lemma {:induction false} DecimalValueNat(d: string)
    requires AllDigits(d)
    ensures DecimalValue(d) >= 0
  {
    if d != [] {
      DecimalValueNat(d[..|d| - 1]);
    }
  }

  /** The global parseInt without a radix: leading white space is skipped,
      one sign is allowed, a "0x" prefix switches to base 16, and the longest
      run of digits after that is read; None stands for NaN (no digit). */
  function ParseInt(s: string): Option<int> {
    var t := TrimStart(s);
    var negative := t != [] && t[0] == '-';
    var u := if t != [] && (t[0] == '-' || t[0] == '+') then t[1..] else t;
    var magnitude: Option<int> :=
      if |u| >= 2 && u[0] == '0' && (u[1] == 'x' || u[1] == 'X') then
        var h := HexPrefix(u[2..]);
        if h == [] then None else Some(HexValue(h))
      else
        var d := DigitPrefix(u);
        if d == [] then None else Some(DecimalValue(d));
    match magnitude
    case None => None
    case Some(k) => Some(if negative then -k else k)
  }

  /** Decimal text of a natural number, without leading zeros. */
  function NatToString(n: nat): string {
    if n < 10 then [DigitChar(n)] else NatToString(n / 10) + [DigitChar(n % 10)]
  }

  /** The text of a number is a non-empty run of digits, without a leading
      zero, that denotes the number. */
  lemma {:induction false} NatToStringSpec(n: nat)
    ensures var r := NatToString(n);
            r != [] && AllDigits(r) && DecimalValue(r) == n && (n > 0 ==> r[0] != '0')
  {
    if n >= 10 {
      NatToStringSpec(n / 10);
      var r := NatToString(n);
      assert r[..|r| - 1] == NatToString(n / 10);
    }
  }

  /** The text JavaScript gives an integral Number. */
  function IntToString(n: int): string {
    if n < 0 then "-" + NatToString(-n) else NatToString(n)
  }

  /** On a run of digits DigitPrefix takes everything. */
  lemma {:induction false} DigitPrefixOfDigits(d: string)
    requires AllDigits(d)
    ensures DigitPrefix(d) == d
  {
    if d != [] {
      DigitPrefixOfDigits(d[1..]);
    }
  }

  /** parseInt reads a run of digits as its decimal value. */
  lemma ParseIntOfDigits(m: string)
    requires m != [] && AllDigits(m)
    ensures ParseInt(m) == Some(DecimalValue(m))
  {
    assert !IsSpace(m[0]);
    assert TrimStart(m) == m;
    if |m| >= 2 {
      assert IsDigit(m[1]);
    }
    DigitPrefixOfDigits(m);
  }

  /** parseInt reads a minus sign followed by a run of digits as the negated
      decimal value. */
  lemma ParseIntOfNegatedDigits(m: string)
    requires m != [] && AllDigits(m)
    ensures ParseInt("-" + m) == Some(-DecimalValue(m))
  {
    var s := "-" + m;
    assert !IsSpace(s[0]);
    assert TrimStart(s) == s;
    assert s[1..] == m;
    if |m| >= 2 {
      assert IsDigit(m[1]);
    }
    DigitPrefixOfDigits(m);
  }

  /** parseInt reads back the text of every integer. */
  lemma ParseIntToString(n: int)
    ensures ParseInt(IntToString(n)) == Some(n)
  {
    if n < 0 {
      NatToStringSpec(-n);
      ParseIntOfNegatedDigits(NatToString(-n));
    } else {
      NatToStringSpec(n);
      ParseIntOfDigits(NatToString(n));
    }
  }

  /** Different integers have different texts. */
  lemma IntToStringInjective(a: int, b: int)
    requires IntToString(a) == IntToString(b)
    ensures a == b
  {
    ParseIntToString(a);
    ParseIntToString(b);
  }

  /** The text of an integer holds only digits and a leading minus sign. */
  lemma IntToStringChars(n: int)
    ensures IntToString(n) != []
    ensures forall i :: 0 <= i < |IntToString(n)| ==> IsDigit(IntToString(n)[i]) || (i == 0 && IntToString(n)[i] == '-')
  {
    NatToStringSpec(if n < 0 then -n else n);
  }
}

=== FILE: mapping.dfy ===
/** The address mapping built from the environment (buildMapping): the
    primary's internal address first, then one entry per replica and one per
    sentinel, each mapped to the external host and a port counted up from
    the start of its port range. */
module Mapping {
  import opened Optional
  import opened JsText
  import opened JsObject

  /** A numbered group of containers (the replicas or the sentinels): its
      host name prefix, the settings giving its count, its external port
      range and its internal port, and that port's default. */
  datatype Group = Group(name: string, countKey: string, portsKey: string, portKey: string, defaultPort: string)

  const Replicas: Group :=
    Group("replica", "DOCKER_REDIS_REPLICA_COUNT", "DOCKER_REDIS_REPLICA_PORTS", "REDIS_REPLICA_PORT", "6379")

  const Sentinels: Group :=
    Group("sentinel", "DOCKER_REDIS_SENTINEL_COUNT", "DOCKER_REDIS_SENTINEL_PORTS", "REDIS_SENTINEL_PORT", "26379")

  function ExternalHost(env: Entries): string {
    ValueOr(env, "EXTERNAL_HOST", "localhost")
  }

  function PrimaryKey(env: Entries): string {
    ValueOr(env, "REDIS_PRIMARY_HOST", "primary") + ":" + ValueOr(env, "REDIS_PRIMARY_PORT", "6379")
  }

  function PrimaryTarget(env: Entries): string {
    ExternalHost(env) + ":" + ValueOr(env, "DOCKER_REDIS_PORT", "6379")
  }

  /** The group's count setting read with parseInt (None for NaN). */
  function Count(env: Entries, g: Group): Option<int> {
    ParseInt(ValueOr(env, g.countKey, "0"))
  }

  /** `i < n` for a Number that may be NaN: a comparison with NaN is false. */
  predicate Below(i: int, n: Option<int>) {
    n.Some? && i < n.value
  }

  /** How many times `for (let i = 0; i < n; i++)` runs. */
  function LoopCount(n: Option<int>): nat {
    if n.Some? && n.value > 0 then n.value else 0
  }

  /** The start of the group's port range, `ports.split('-')[0]` read with
      parseInt (None for NaN). */
  function StartPort(env: Entries, g: Group): Option<int> {
    ParseInt(Split(ValueOr(env, g.portsKey, ""), '-')[0])
  }

  /** The text of `start + i`; NaN plus anything is NaN. */
  function PortText(start: Option<int>, i: nat): string {
    match start
    case None => "NaN"
    case Some(p) => IntToString(p + i)
  }

  /** The host name of member `i`, counting from 1. */
  function MemberHost(g: Group, i: nat): string {
    g.name + "-" + IntToString(i + 1)
  }

  function MemberKey(env: Entries, g: Group, i: nat): string {
    MemberHost(g, i) + ":" + ValueOr(env, g.portKey, g.defaultPort)
  }

  function MemberTarget(env: Entries, g: Group, i: nat): string {
    ExternalHost(env) + ":" + PortText(StartPort(env, g), i)
  }

  /** The assignments one group's loop makes, in loop order. */
  function GroupWrites(env: Entries, g: Group): (w: Entries)
    ensures |w| == LoopCount(Count(env, g))
    ensures forall i: nat :: i < |w| <==> Below(i, Count(env, g))
  {
    seq(LoopCount(Count(env, g)), i requires 0 <= i => (MemberKey(env, g, i), MemberTarget(env, g, i)))
  }

  /** Every assignment buildMapping makes, in order. */
  function Writes(env: Entries): Entries {
    [(PrimaryKey(env), PrimaryTarget(env))] + GroupWrites(env, Replicas) + GroupWrites(env, Sentinels)
  }

  /** The object buildMapping returns: the assignments made one by one. */
  function MappingOf(env: Entries): Entries {
    PutAll([], Writes(env))
  }

  /** buildMapping: the primary entry, then the replica loop, then the
      sentinel loop, each assigning one key per turn. */
  method BuildMapping(env: Entries) returns (mapping: Entries)
    ensures mapping == MappingOf(env)
  {
    mapping := [];
    var externalHost := ValueOr(env, "EXTERNAL_HOST", "localhost");
    var primaryHost := ValueOr(env, "REDIS_PRIMARY_HOST", "primary");
    var primaryPort := ValueOr(env, "REDIS_PRIMARY_PORT", "6379");
    var externalPrimaryPort := ValueOr(env, "DOCKER_REDIS_PORT", "6379");
    mapping := Put(mapping, primaryHost + ":" + primaryPort, externalHost + ":" + externalPrimaryPort);
    ghost var first := [(PrimaryKey(env), PrimaryTarget(env))];
    PrimaryWritten(env, mapping);

    var replicaCount := ParseInt(ValueOr(env, "DOCKER_REDIS_REPLICA_COUNT", "0"));
    var replicaPorts := ValueOr(env, "DOCKER_REDIS_REPLICA_PORTS", "");
    var startPort := ParseInt(Split(replicaPorts, '-')[0]);
    assert replicaCount == Count(env, Replicas) && startPort == StartPort(env, Replicas);
    var i := 0;
    while Below(i, replicaCount)
      invariant 0 <= i <= LoopCount(replicaCount)
      invariant Built(env, mapping, first, Replicas, i)
      decreases LoopCount(replicaCount) - i
    {
      var replicaHost := "replica-" + IntToString(i + 1);
      var internalPort := ValueOr(env, "REDIS_REPLICA_PORT", "6379");
      var externalPort := PortText(startPort, i);
      GroupStep(env, Replicas, first, i, mapping, replicaHost, internalPort, externalHost + ":" + externalPort);
      mapping := Put(mapping, replicaHost + ":" + internalPort, externalHost + ":" + externalPort);
      i := i + 1;
    }
    ghost var replicas := GroupWrites(env, Replicas);
    GroupDone(env, Replicas, first, i, mapping);

    var sentinelCount := ParseInt(ValueOr(env, "DOCKER_REDIS_SENTINEL_COUNT", "0"));
    var sentinelPorts := ValueOr(env, "DOCKER_REDIS_SENTINEL_PORTS", "");
    var sentinelStart := ParseInt(Split(sentinelPorts, '-')[0]);
    assert sentinelCount == Count(env, Sentinels) && sentinelStart == StartPort(env, Sentinels);
    i := 0;
    GroupStart(env, Sentinels, first + replicas, mapping);
    while Below(i, sentinelCount)
      invariant 0 <= i <= LoopCount(sentinelCount)
      invariant Built(env, mapping, first + replicas, Sentinels, i)
      decreases LoopCount(sentinelCount) - i
    {
      var sentinelHost := "sentinel-" + IntToString(i + 1);
      var internalPort := ValueOr(env, "REDIS_SENTINEL_PORT", "26379");
      var externalPort := PortText(sentinelStart, i);
      GroupStep(env, Sentinels, first + replicas, i, mapping, sentinelHost, internalPort, externalHost + ":" + externalPort);
      mapping := Put(mapping, sentinelHost + ":" + internalPort, externalHost + ":" + externalPort);
      i := i + 1;
    }
    GroupDone(env, Sentinels, first + replicas, i, mapping);
  }

  /** The object after the assignments `pre` and the first `i` assignments
      of group `g`. */
  predicate Built(env: Entries, mapping: Entries, pre: Entries, g: Group, i: nat) {
    i <= |GroupWrites(env, g)| && mapping == PutAll([], pre + GroupWrites(env, g)[..i])
  }

  lemma PrimaryWritten(env: Entries, mapping: Entries)
    requires mapping == Put([], PrimaryKey(env), PrimaryTarget(env))
    ensures Built(env, mapping, [(PrimaryKey(env), PrimaryTarget(env))], Replicas, 0)
  {
    var first := [(PrimaryKey(env), PrimaryTarget(env))];
    assert first + GroupWrites(env, Replicas)[..0] == first;
    assert first[..0] == [];
  }

  lemma GroupStart(env: Entries, g: Group, pre: Entries, mapping: Entries)
    requires mapping == PutAll([], pre)
    ensures Built(env, mapping, pre, g, 0)
  {
    assert pre + GroupWrites(env, g)[..0] == pre;
  }

  lemma GroupDone(env: Entries, g: Group, pre: Entries, i: nat, mapping: Entries)
    requires Built(env, mapping, pre, g, i) && !Below(i, Count(env, g))
    ensures mapping == PutAll([], pre + GroupWrites(env, g))
  {
    assert GroupWrites(env, g)[..i] == GroupWrites(env, g);
  }

  /** One turn of a group's loop: assigning member `i`'s key, built from
      its host name and internal port, adds the group's assignment `i`. */
  lemma GroupStep(env: Entries, g: Group, pre: Entries, i: nat, mapping: Entries, host: string, port: string, target: string)
    requires Built(env, mapping, pre, g, i) && Below(i, Count(env, g))
    requires g == Replicas || g == Sentinels
    requires host == (if g == Replicas then "replica-" else "sentinel-") + IntToString(i + 1)
    requires port == ValueOr(env, g.portKey, g.defaultPort)
    requires target == ExternalHost(env) + ":" + PortText(StartPort(env, g), i)
    ensures Built(env, Put(mapping, host + ":" + port, target), pre, g, i + 1)
  {
    assert host == g.name + "-" + IntToString(i + 1);
    assert GroupWrites(env, g)[i] == (host + ":" + port, target);
    PutAllStep([], pre, GroupWrites(env, g), i);
  }

  /** A member's host name holds no ':' and tells the group and the number
      apart: it is the text before the first ':' of the member's key. */
  lemma MemberKeyHost(env: Entries, g: Group, i: nat)
    requires ':' !in g.name
    ensures ':' !in MemberHost(g, i)
    ensures Split(MemberKey(env, g, i), ':')[0] == MemberHost(g, i)
  {
    IntToStringChars(i + 1);
    var h := MemberHost(g, i);
    assert ':' !in h by {
      forall k | 0 <= k < |h|
        ensures h[k] != ':'
      {
        if k >= |g.name| + 1 {
          assert h[k] == IntToString(i + 1)[k - |g.name| - 1];
        }
      }
    }
    SplitFirstPiece(h, ':', ValueOr(env, g.portKey, g.defaultPort));
  }

  /** Different members of a group have different keys. */
  lemma MemberKeysDistinct(env: Entries, g: Group, i: nat, j: nat)
    requires ':' !in g.name && i != j
    ensures MemberKey(env, g, i) != MemberKey(env, g, j)
  {
    if MemberKey(env, g, i) == MemberKey(env, g, j) {
      MemberKeyHost(env, g, i);
      MemberKeyHost(env, g, j);
      var n := |g.name| + 1;
      assert MemberHost(g, i)[n..] == IntToString(i + 1);
      assert MemberHost(g, j)[n..] == IntToString(j + 1);
      IntToStringInjective(i + 1, j + 1);
    }
  }

  /** No replica key is a sentinel key. */
  lemma ReplicaNotSentinel(env: Entries, i: nat, j: nat)
    ensures MemberKey(env, Replicas, i) != MemberKey(env, Sentinels, j)
  {
    assert MemberKey(env, Replicas, i)[0] == 'r';
    assert MemberKey(env, Sentinels, j)[0] == 's';
  }

  /** The keys of a group's assignments are all different. */
  lemma GroupUnique(env: Entries, g: Group)
    requires ':' !in g.name
    ensures UniqueKeys(GroupWrites(env, g))
  {
    var w := GroupWrites(env, g);
    forall i, j | 0 <= i < j < |w|
      ensures w[i].0 != w[j].0
    {
      MemberKeysDistinct(env, g, i, j);
    }
  }

  /** No replica assignment shares its key with a sentinel assignment. */
  lemma GroupsDisjoint(env: Entries)
    ensures forall i, j :: 0 <= i < |GroupWrites(env, Replicas)| && 0 <= j < |GroupWrites(env, Sentinels)| ==>
              GroupWrites(env, Replicas)[i].0 != GroupWrites(env, Sentinels)[j].0
  {
    forall i, j | 0 <= i < |GroupWrites(env, Replicas)| && 0 <= j < |GroupWrites(env, Sentinels)|
      ensures GroupWrites(env, Replicas)[i].0 != GroupWrites(env, Sentinels)[j].0
    {
      ReplicaNotSentinel(env, i, j);
    }
  }

  /** Replica `i` (counting from 0) maps `replica-(i+1):<replica port>` to
      the external host and port `start + i`, whatever else is configured:
      no later assignment writes that key. */
  lemma ReplicaMapped(env: Entries, i: nat)
    requires i < LoopCount(Count(env, Replicas))
    ensures Get(MappingOf(env), MemberKey(env, Replicas, i)) == Some(MemberTarget(env, Replicas, i))
  {
    var r := GroupWrites(env, Replicas);
    var k := r[i].0;
    GroupUnique(env, Replicas);
    GroupsDisjoint(env);
    LastValueInRun([(PrimaryKey(env), PrimaryTarget(env))], r, GroupWrites(env, Sentinels), k, i);
    PutAllGet([], Writes(env), k);
  }

  /** Sentinel `i` maps `sentinel-(i+1):<sentinel port>` to the external
      host and port `start + i`. */
  lemma SentinelMapped(env: Entries, i: nat)
    requires i < LoopCount(Count(env, Sentinels))
    ensures Get(MappingOf(env), MemberKey(env, Sentinels, i)) == Some(MemberTarget(env, Sentinels, i))
  {
    var s := GroupWrites(env, Sentinels);
    var k := s[i].0;
    GroupUnique(env, Sentinels);
    LastValueInRun([(PrimaryKey(env), PrimaryTarget(env))] + GroupWrites(env, Replicas), s, [], k, i);
    assert Writes(env) == Writes(env) + [];
    PutAllGet([], Writes(env), k);
  }

  /** The primary's key is not also the key of a replica or a sentinel. */
  predicate PrimaryKeyOwn(env: Entries) {
    (forall i :: 0 <= i < LoopCount(Count(env, Replicas)) ==> MemberKey(env, Replicas, i) != PrimaryKey(env)) &&
    (forall i :: 0 <= i < LoopCount(Count(env, Sentinels)) ==> MemberKey(env, Sentinels, i) != PrimaryKey(env))
  }

  /** The first key of the mapping is always the primary's. */
  lemma PrimaryKeyFirst(env: Entries)
    ensures |MappingOf(env)| >= 1 && MappingOf(env)[0].0 == PrimaryKey(env)
  {
    var w := Writes(env);
    assert w == [w[0]] + w[1..];
    PutAllFirstKey(w[0], w[1..]);
  }

  /** All assigned keys differ when the primary's key is its own. */
  lemma WritesUnique(env: Entries)
    requires PrimaryKeyOwn(env)
    ensures UniqueKeys(Writes(env))
  {
    var p := [(PrimaryKey(env), PrimaryTarget(env))];
    var r := GroupWrites(env, Replicas);
    var s := GroupWrites(env, Sentinels);
    GroupUnique(env, Replicas);
    GroupUnique(env, Sentinels);
    GroupsDisjoint(env);
    UniqueConcat(p, r);
    forall i, j | 0 <= i < |p + r| && 0 <= j < |s|
      ensures (p + r)[i].0 != s[j].0
    {
      if i > 0 {
        assert (p + r)[i] == r[i - 1];
      }
    }
    UniqueConcat(p + r, s);
  }

  /** When the primary's key is its own, the mapping holds exactly the
      assignments in order: the primary entry first, then the replicas, then
      the sentinels, 1 + replicaCount + sentinelCount entries in all. */
  lemma MappingExact(env: Entries)
    requires PrimaryKeyOwn(env)
    ensures MappingOf(env) == Writes(env)
    ensures |MappingOf(env)| == 1 + LoopCount(Count(env, Replicas)) + LoopCount(Count(env, Sentinels))
    ensures MappingOf(env)[0] == (PrimaryKey(env), PrimaryTarget(env))
  {
    WritesUnique(env);
    PutAllDistinct(Writes(env));
  }

  /** With no settings at all, the mapping is the single default entry
      `primary:6379 -> localhost:6379`. */
  lemma DefaultMapping()
    ensures MappingOf([]) == [("primary:6379", "localhost:6379")]
  {
    ParseIntOfDigits("0");
    assert DecimalValue("0") == 0;
    assert ParseInt("0") == Some(0);
    assert GroupWrites([], Replicas) == [];
    assert GroupWrites([], Sentinels) == [];
    assert PrimaryKey([]) == "primary:6379";
    assert PrimaryTarget([]) == "localhost:6379";
    assert Writes([]) == [("primary:6379", "localhost:6379")];
    PutAllDistinct(Writes([]));
  }
}

=== FILE: optional.dfy ===
/** An optional value, shared by the modules of the model. */
module Optional {
  datatype Option<+T> = None | Some(value: T)
}

=== FILE: proxy.dfy ===
/** What the translator forwards to the client for each chunk the sentinel
    sends (the upstream `data` handler): the chunk decoded, translated and
    re-encoded, or, when decoding fails, the chunk exactly as it came. */
module Proxy {
  import opened JsObject
  import Resp
  import RespCursor
  import RespAsWritten
  import opened Translator

  /** The text written to the client for one upstream chunk: a chunk that
      does not decode is forwarded unchanged, and one that decodes is
      forwarded as a single frame that decodes to the translated reply. */
  function Forward(m: Entries, chunk: string): (r: string)
    ensures Resp.Parse(chunk).Err? ==> r == chunk
    ensures Resp.Parse(chunk).Ok? ==> Resp.Parse(r) == Resp.Ok(Translate(Resp.Parse(chunk).value, m))
  {
    match Resp.Parse(chunk)
    case Ok(v) =>
      Resp.ParsedWellFormed(chunk, 0);
      TranslateWellFormed(v, m);
      Resp.RoundTrip(Translate(v, m));
      Resp.Encode(Translate(v, m))
    case Err(_) => chunk
  }

  /** The upstream data handler: parse, translate, encode; on a decode error
      the chunk is passed through. */
  method HandleUpstreamData(m: Entries, data: string) returns (out: string)
    ensures out == Forward(m, data)
  {
    var parsed := RespCursor.Parse(data);
    if parsed.Err? {
      return data;
    }
    var translated := Translate(parsed.value, m);
    out := RespCursor.Encode(translated);
  }

  /** Whatever the client receives is either the chunk itself or one whole
      frame: a rewritten chunk held exactly one frame, and it is replaced by
      exactly one frame, so no reply is lost or split. */
  lemma NothingDropped(m: Entries, chunk: string)
    ensures Forward(m, chunk) == chunk ||
            (Resp.ParseValue(chunk, 0).Ok? && Resp.ParseValue(chunk, 0).value.1 == |chunk| &&
             Resp.Parse(Forward(m, chunk)).Ok?)
  {
  }

  /** With an empty mapping every chunk that decodes is forwarded in the
      encoder's form of the same reply. */
  lemma EmptyMappingForwardsSameReply(chunk: string)
    requires Resp.Parse(chunk).Ok?
    ensures Forward([], chunk) == Resp.Encode(Resp.Parse(chunk).value)
    ensures Resp.Parse(Forward([], chunk)) == Resp.Parse(chunk)
  {
    EmptyMappingKeepsReply(Resp.Parse(chunk).value);
  }

  /** The handler with the decoder as written: what it forwards for a chunk
      it decodes is a single frame that decodes, with the corrected decoder,
      to the translation of the first reply in the chunk. */
  function ForwardAsWritten(m: Entries, chunk: string): (r: string)
    ensures RespAsWritten.Parse(chunk).Err? ==> r == chunk
    ensures RespAsWritten.Parse(chunk).Ok? ==>
              Resp.Parse(r) == Resp.Ok(Translate(RespAsWritten.Parse(chunk).value, m))
  {
    match RespAsWritten.Parse(chunk)
    case Ok(v) =>
      TranslateWellFormed(v, m);
      Resp.RoundTrip(Translate(v, m));
      Resp.Encode(Translate(v, m))
    case Err(_) => chunk
  }

  /** On every chunk the corrected decoder accepts, the handler forwards
      what it forwards with the decoder as written. */
  lemma SameForwardWhenDecodable(m: Entries, chunk: string)
    requires Resp.Parse(chunk).Ok?
    ensures ForwardAsWritten(m, chunk) == Forward(m, chunk)
  {
    RespAsWritten.CorrectionOnlyRejects(chunk);
  }

  /** As written, a chunk with two replies loses the second; the corrected
      handler passes the chunk through. */
  lemma SecondReplyDropped(m: Entries)
    ensures ForwardAsWritten(m, "+OK\r\n+OK\r\n") == "+OK\r\n"
    ensures Forward(m, "+OK\r\n+OK\r\n") == "+OK\r\n+OK\r\n"
  {
    RespAsWritten.TrailingReplyIgnored();
  }

  /** As written, a bulk reply cut short by the end of the chunk is forwarded
      as a complete reply with a shorter length; the corrected handler passes
      the chunk through. */
  lemma TruncatedReplyCompleted()
    ensures ForwardAsWritten([], "$10\r\nabc") == "$3\r\nabc\r\n"
    ensures Forward([], "$10\r\nabc") == "$10\r\nabc"
  {
    RespAsWritten.TruncatedBulkAccepted();
    EmptyMappingKeepsReply(Resp.Bulk("abc"));
  }
}

=== FILE: resp.dfy ===
/** The RESP2 wire codec of the translator (class RESPParser), as functions.

    The decoder reads one frame at a time from a position in the text and
    returns the value together with the position just after the frame, which
    is the cursor the source threads through `state.pos`. This is the
    corrected decoder: a bulk payload must be present in full and be followed
    by CRLF, and a chunk must hold exactly one frame (see RespAsWritten for
    the decoder as the source writes it). */
module Resp {
  import opened Optional
  import opened JsText

  /** A parsed reply. Both the null bulk string and the null array decode to
      the one value Null, which encodes as the null bulk string. */
  datatype Value =
    | SimpleString(text: string)
    | ErrorReply(text: string)
    | Integer(n: int)
    | Bulk(data: string)
    | Null
    | Array(items: seq<Value>)

  datatype DecodeError =
    | UnknownType    // the leading character is not one of + - : $ *, or the input has ended
    | MissingCrlf    // no CRLF where a header or a payload must end
    | BadNumber      // a header or an integer with no digits (parseInt gives NaN)
    | BadLength      // a bulk length below -1
    | Truncated      // a bulk payload longer than the rest of the input
    | TrailingData   // input left over after the first frame

  datatype Result<+T> = Ok(value: T) | Err(error: DecodeError)

  const CRLF: string := "\r\n"

  predicate IsMarker(c: char) {
    c == '+' || c == '-' || c == ':' || c == '$' || c == '*'
  }

  predicate CrlfAt(s: string, i: int) {
    0 <= i && i + 1 < |s| && s[i] == '\r' && s[i + 1] == '\n'
  }

  predicate NoCrlf(t: string) {
    forall i :: 0 <= i < |t| ==> !CrlfAt(t, i)
  }

  /** No CRLF starts in `s` at a position from `from` up to, not including, `to`. */
  ghost predicate NoCrlfBetween(s: string, from: nat, to: int) {
    forall i :: from <= i < to ==> !CrlfAt(s, i)
  }

  /** No CRLF starts in `s` at or after `from`. */
  ghost predicate NoCrlfFrom(s: string, from: nat) {
    forall i :: from <= i ==> !CrlfAt(s, i)
  }

  /** The first CRLF at or after `from`: `str.indexOf('\r\n', from)`. */
  function FindCrlf(s: string, from: nat): (r: Option<nat>)
    ensures r.Some? ==> from <= r.value && CrlfAt(s, r.value)
    decreases |s| - from
  {
    if from + 1 >= |s| then None
    else if s[from] == '\r' && s[from + 1] == '\n' then Some(from)
    else FindCrlf(s, from + 1)
  }

  /** FindCrlf finds the first CRLF at or after `from`, and finds none only
      when there is none. */
  lemma {:induction false} FindCrlfFirst(s: string, from: nat)
    ensures FindCrlf(s, from).Some? ==> forall i :: from <= i < FindCrlf(s, from).value ==> !CrlfAt(s, i)
    ensures FindCrlf(s, from).None? ==> forall i :: from <= i ==> !CrlfAt(s, i)
    decreases |s| - from
  {
    if from + 1 < |s| && !(s[from] == '\r' && s[from + 1] == '\n') {
      FindCrlfFirst(s, from + 1);
    }
  }

  /** The text from `pos` to the next CRLF, and the position after that CRLF. */
  function ReadLine(s: string, pos: nat): (r: Result<(string, nat)>)
    ensures r.Ok? ==> pos + |r.value.0| + 2 == r.value.1 <= |s|
    ensures r.Ok? ==> r.value.0 == s[pos..r.value.1 - 2] && CrlfAt(s, r.value.1 - 2)
    ensures r.Ok? ==> NoCrlfBetween(s, pos, r.value.1 - 2)
    ensures r.Err? <==> NoCrlfFrom(s, pos)
    ensures r.Err? ==> r.error == MissingCrlf
  {
    FindCrlfFirst(s, pos);
    match FindCrlf(s, pos)
    case None => Err(MissingCrlf)
    case Some(e) => Ok((s[pos..e], e + 2))
  }

  /** A header line read with parseInt: the number is what parseInt reads
      from the text before the first CRLF, and the cursor lands just past
      that CRLF; it fails when there is no CRLF or parseInt gives NaN. */
  function ReadLength(s: string, pos: nat): (r: Result<(int, nat)>)
    ensures r.Ok? ==> pos + 2 <= r.value.1 <= |s|
    ensures r.Ok? ==> ReadLine(s, pos).Ok? && r.value.1 == ReadLine(s, pos).value.1 &&
                      ParseInt(ReadLine(s, pos).value.0) == Some(r.value.0)
    ensures r.Err? <==> ReadLine(s, pos).Err? || ParseInt(ReadLine(s, pos).value.0).None?
  {
    match ReadLine(s, pos)
    case Err(e) => Err(e)
    case Ok((t, q)) =>
      match ParseInt(t)
      case None => Err(BadNumber)
      case Some(n) => Ok((n, q))
  }

  /** `+<text>\r\n`: the text runs to the first CRLF. */
  function ParseSimpleString(s: string, pos: nat): (r: Result<(Value, nat)>)
    ensures r.Ok? ==> pos + 2 <= r.value.1 <= |s|
    ensures r.Ok? ==> r.value.0 == SimpleString(s[pos..r.value.1 - 2]) &&
                      CrlfAt(s, r.value.1 - 2) && NoCrlfBetween(s, pos, r.value.1 - 2)
    ensures r.Err? <==> NoCrlfFrom(s, pos)
  {
    match ReadLine(s, pos)
    case Err(e) => Err(e)
    case Ok((t, q)) => Ok((SimpleString(t), q))
  }

  /** `-<text>\r\n`: the text runs to the first CRLF. */
  function ParseError(s: string, pos: nat): (r: Result<(Value, nat)>)
    ensures r.Ok? ==> pos + 2 <= r.value.1 <= |s|
    ensures r.Ok? ==> r.value.0 == ErrorReply(s[pos..r.value.1 - 2]) &&
                      CrlfAt(s, r.value.1 - 2) && NoCrlfBetween(s, pos, r.value.1 - 2)
    ensures r.Err? <==> NoCrlfFrom(s, pos)
  {
    match ReadLine(s, pos)
    case Err(e) => Err(e)
    case Ok((t, q)) => Ok((ErrorReply(t), q))
  }

  /** `:<number>\r\n`, the number read with parseInt. */
  function ParseInteger(s: string, pos: nat): (r: Result<(Value, nat)>)
    ensures r.Ok? ==> pos + 2 <= r.value.1 <= |s|
    ensures r.Ok? ==> r.value.0.Integer? && ReadLine(s, pos).Ok? && r.value.1 == ReadLine(s, pos).value.1 &&
                      ParseInt(ReadLine(s, pos).value.0) == Some(r.value.0.n)
  {
    match ReadLength(s, pos)
    case Err(e) => Err(e)
    case Ok((n, q)) => Ok((Integer(n), q))
  }

  /** `$<length>\r\n<payload>\r\n`, or `$-1\r\n` for Null. */
  function ParseBulkString(s: string, pos: nat): (r: Result<(Value, nat)>)
    ensures r.Ok? ==> pos + 2 <= r.value.1 <= |s|
    ensures r.Ok? ==> r.value.0.Null? || r.value.0.Bulk?
    ensures r.Ok? && r.value.0.Null? ==> ReadLength(s, pos).Ok? && ReadLength(s, pos).value.0 == -1
    ensures r.Ok? && r.value.0.Bulk? ==>
              pos + |r.value.0.data| + 4 <= r.value.1 && CrlfAt(s, r.value.1 - 2) &&
              r.value.0.data == s[r.value.1 - 2 - |r.value.0.data|..r.value.1 - 2]
  {
    match ReadLength(s, pos)
    case Err(e) => Err(e)
    case Ok((n, q)) =>
      if n == -1 then Ok((Null, q))
      else if n < -1 then Err(BadLength)
      else if q + n + 2 > |s| then Err(Truncated)
      else if !CrlfAt(s, q + n) then Err(MissingCrlf)
      else Ok((Bulk(s[q..q + n]), q + n + 2))
  }

  /** The number of elements the source's loop reads for a count header:
      a negative count other than -1 runs the loop zero times. */
  function ElementCount(n: int): nat {
    if n < 0 then 0 else n
  }

  /** `*<count>\r\n` followed by that many frames, or `*-1\r\n` for Null. */
  function ParseArray(s: string, pos: nat): (r: Result<(Value, nat)>)
    requires pos <= |s|
    ensures r.Ok? ==> pos + 2 <= r.value.1 <= |s|
    ensures r.Ok? ==> r.value.0.Null? || r.value.0.Array?
    decreases |s| - pos, 0, 0
  {
    match ReadLength(s, pos)
    case Err(e) => Err(e)
    case Ok((n, q)) =>
      if n == -1 then Ok((Null, q))
      else
        match ParseItems(s, q, ElementCount(n))
        case Err(e) => Err(e)
        case Ok((items, q')) => Ok((Array(items), q'))
  }

  /** `n` frames one after the other, in wire order. */
  function ParseItems(s: string, pos: nat, n: nat): (r: Result<(seq<Value>, nat)>)
    requires pos <= |s|
    ensures r.Ok? ==> |r.value.0| == n && pos <= r.value.1 <= |s|
    decreases |s| - pos, 1, n
  {
    if n == 0 then Ok(([], pos))
    else
      match ParseValue(s, pos)
      case Err(e) => Err(e)
      case Ok((v, p)) =>
        match ParseItems(s, p, n - 1)
        case Err(e) => Err(e)
        case Ok((vs, q)) => Ok(([v] + vs, q))
  }

  /** One frame starting at `pos`, dispatched on its type marker. */
  function ParseValue(s: string, pos: nat): (r: Result<(Value, nat)>)
    requires pos <= |s|
    ensures r.Ok? ==> pos < |s| && IsMarker(s[pos]) && pos < r.value.1 <= |s|
    decreases |s| - pos, 0, 0
  {
    if pos == |s| then Err(UnknownType)
    else if s[pos] == '+' then ParseSimpleString(s, pos + 1)
    else if s[pos] == '-' then ParseError(s, pos + 1)
    else if s[pos] == ':' then ParseInteger(s, pos + 1)
    else if s[pos] == '$' then ParseBulkString(s, pos + 1)
    else if s[pos] == '*' then ParseArray(s, pos + 1)
    else Err(UnknownType)
  }

  /** A whole chunk holding exactly one frame. */
  function Parse(s: string): (r: Result<Value>)
    ensures r.Ok? ==> s != [] && IsMarker(s[0])
  {
    match ParseValue(s, 0)
    case Err(e) => Err(e)
    case Ok((v, q)) => if q == |s| then Ok(v) else Err(TrailingData)
  }

  /** Text that starts with a type marker and ends with CRLF. */
  ghost predicate Framed(e: string) {
    |e| >= 3 && IsMarker(e[0]) && CrlfAt(e, |e| - 2)
  }

  /** The frame of a value. */
  function Encode(v: Value): string
    decreases v, 1
  {
    match v
    case SimpleString(t) => "+" + t + CRLF
    case ErrorReply(t) => "-" + t + CRLF
    case Integer(n) => ":" + IntToString(n) + CRLF
    case Null => "$-1" + CRLF
    case Bulk(d) => "$" + IntToString(|d|) + CRLF + d + CRLF
    case Array(items) => "*" + IntToString(|items|) + CRLF + EncodeItems(items)
  }

  /** The frames of the items one after the other: nothing only for no
      items. */
  function EncodeItems(items: seq<Value>): (e: string)
    ensures e == [] <==> items == []
    decreases items, 0
  {
    if items == [] then "" else Encode(items[0]) + EncodeItems(items[1..])
  }

  /** Every encoding is a frame: a type marker first, CRLF last. */
  lemma {:induction false} EncodeFramed(v: Value)
    ensures Framed(Encode(v))
    decreases v, 1
  {
    if v.Array? && v.items != [] {
      EncodeItemsFramed(v.items);
    }
  }

  /** The frames of one or more items start with a type marker and end with
      CRLF. */
  lemma {:induction false} EncodeItemsFramed(items: seq<Value>)
    requires items != []
    ensures Framed(EncodeItems(items))
    decreases items, 0
  {
    var a := Encode(items[0]);
    var b := EncodeItems(items[1..]);
    assert EncodeItems(items) == a + b;
    EncodeFramed(items[0]);
    if items[1..] != [] {
      EncodeItemsFramed(items[1..]);
    }
    FramedConcat(a, b);
  }

  /** A frame followed by nothing or by another frame is framed. */
  lemma FramedConcat(a: string, b: string)
    requires Framed(a) && (b == [] || Framed(b))
    ensures Framed(a + b)
  {
    if b == [] {
      assert a + b == a;
    } else {
      assert (a + b)[|a + b| - 2] == b[|b| - 2] && (a + b)[|a + b| - 1] == b[|b| - 1];
    }
  }

  /** The values the encoder writes unambiguously: a simple string or an
      error has no CRLF inside its text. */
  predicate WellFormed(v: Value)
    decreases v
  {
    match v
    case SimpleString(t) => NoCrlf(t)
    case ErrorReply(t) => NoCrlf(t)
    case Array(items) => forall i :: 0 <= i < |items| ==> WellFormed(items[i])
    case _ => true
  }

  /** `t` stands in `s` at position `pos`. */
  predicate Occurs(s: string, pos: nat, t: string) {
    pos + |t| <= |s| && s[pos..pos + |t|] == t
  }

  /** The frame at `pos` decodes to `v`, and the cursor ends at `q`. */
  predicate Decodes(s: string, pos: nat, v: Value, q: nat) {
    pos <= |s| && ParseValue(s, pos) == Ok((v, q))
  }

  /** The frames from `pos` on decode to `items`, and the cursor ends at `q`. */
  predicate DecodesItems(s: string, pos: nat, items: seq<Value>, q: nat) {
    pos <= |s| && ParseItems(s, pos, |items|) == Ok((items, q))
  }

  lemma OccursConcat(s: string, pos: nat, a: string, b: string)
    requires Occurs(s, pos, a + b)
    ensures Occurs(s, pos, a) && Occurs(s, pos + |a|, b)
  {
    assert s[pos..pos + |a|] == (a + b)[..|a|];
    assert s[pos + |a|..pos + |a| + |b|] == (a + b)[|a|..];
  }

  /** A line without CRLF followed by CRLF is read as that line. */
  lemma ReadLineAt(s: string, pos: nat, t: string)
    requires Occurs(s, pos, t + CRLF) && NoCrlf(t)
    ensures ReadLine(s, pos) == Ok((t, pos + |t| + 2))
  {
    var e := pos + |t|;
    assert s[e] == (t + CRLF)[|t|] && s[e + 1] == (t + CRLF)[|t| + 1];
    assert CrlfAt(s, e);
    forall i | pos <= i < e
      ensures !CrlfAt(s, i)
    {
      assert s[i] == (t + CRLF)[i - pos] && s[i + 1] == (t + CRLF)[i + 1 - pos];
      if i + 1 < e {
        assert !CrlfAt(t, i - pos);
      }
    }
    FindCrlfFirst(s, pos);
    assert FindCrlf(s, pos) == Some(e);
    assert s[pos..e] == (t + CRLF)[..|t|] == t;
  }

  lemma IntToStringNoCrlf(n: int)
    ensures NoCrlf(IntToString(n))
  {
    IntToStringChars(n);
  }

  /** A header written by the encoder is read back as the number written. */
  lemma ReadLengthAt(s: string, pos: nat, n: int)
    requires Occurs(s, pos, IntToString(n) + CRLF)
    ensures ReadLength(s, pos) == Ok((n, pos + |IntToString(n)| + 2))
  {
    IntToStringNoCrlf(n);
    ReadLineAt(s, pos, IntToString(n));
    ParseIntToString(n);
  }

  lemma MarkerAt(s: string, pos: nat, c: char, t: string)
    requires Occurs(s, pos, [c] + t)
    ensures pos < |s| && s[pos] == c && Occurs(s, pos + 1, t)
  {
    OccursConcat(s, pos, [c], t);
  }

  /** ParseValue hands the rest of the frame to the reader its marker names. */
  lemma Dispatch(s: string, pos: nat)
    requires pos < |s|
    ensures s[pos] == '+' ==> ParseValue(s, pos) == ParseSimpleString(s, pos + 1)
    ensures s[pos] == '-' ==> ParseValue(s, pos) == ParseError(s, pos + 1)
    ensures s[pos] == ':' ==> ParseValue(s, pos) == ParseInteger(s, pos + 1)
    ensures s[pos] == '$' ==> ParseValue(s, pos) == ParseBulkString(s, pos + 1)
    ensures s[pos] == '*' ==> ParseValue(s, pos) == ParseArray(s, pos + 1)
  {
  }

  lemma LineReadersAt(s: string, pos: nat, t: string)
    requires Occurs(s, pos, t + CRLF) && NoCrlf(t)
    ensures ParseSimpleString(s, pos) == Ok((SimpleString(t), pos + |t| + 2))
    ensures ParseError(s, pos) == Ok((ErrorReply(t), pos + |t| + 2))
  {
    ReadLineAt(s, pos, t);
  }

  lemma IntegerAt(s: string, pos: nat, n: int)
    requires Occurs(s, pos, IntToString(n) + CRLF)
    ensures ParseInteger(s, pos) == Ok((Integer(n), pos + |IntToString(n)| + 2))
  {
    ReadLengthAt(s, pos, n);
  }

  lemma NullBulkAt(s: string, pos: nat)
    requires Occurs(s, pos, IntToString(-1) + CRLF)
    ensures ParseBulkString(s, pos) == Ok((Null, pos + |IntToString(-1)| + 2))
  {
    ReadLengthAt(s, pos, -1);
  }

  /** The bulk reader once its header has been read as `n`. */
  lemma BulkAfterHeader(s: string, pos: nat, n: nat, q: nat)
    requires ReadLength(s, pos) == Ok((n, q)) && q + n + 2 <= |s| && CrlfAt(s, q + n)
    ensures ParseBulkString(s, pos) == Ok((Bulk(s[q..q + n]), q + n + 2))
  {
  }

  /** A payload followed by CRLF, once its length header has been read. */
  lemma PayloadAt(s: string, q: nat, d: string)
    requires Occurs(s, q, d + CRLF)
    ensures q + |d| + 2 <= |s| && s[q..q + |d|] == d && CrlfAt(s, q + |d|)
  {
    OccursConcat(s, q, d, CRLF);
    assert s[q + |d|..q + |d| + 2] == CRLF;
    assert s[q + |d|] == CRLF[0] && s[q + |d| + 1] == CRLF[1];
  }

  lemma BulkPayloadAt(s: string, pos: nat, d: string)
    requires Occurs(s, pos, IntToString(|d|) + CRLF)
    requires Occurs(s, pos + |IntToString(|d|)| + 2, d + CRLF)
    ensures ParseBulkString(s, pos) == Ok((Bulk(d), pos + |IntToString(|d|)| + 2 + |d| + 2))
  {
    var q := pos + |IntToString(|d|)| + 2;
    ReadLengthAt(s, pos, |d|);
    PayloadAt(s, q, d);
    BulkAfterHeader(s, pos, |d|, q);
  }

  /** An array header written by the encoder, followed by items the item
      reader accepts, is read as the array of those items. */
  lemma ArrayHeaderAt(s: string, pos: nat, items: seq<Value>, q: nat)
    requires Occurs(s, pos, IntToString(|items|) + CRLF)
    requires DecodesItems(s, pos + |IntToString(|items|)| + 2, items, q)
    ensures ParseArray(s, pos) == Ok((Array(items), q))
  {
    ReadLengthAt(s, pos, |items|);
    ArrayAfterHeader(s, pos, items, pos + |IntToString(|items|)| + 2, q);
  }

  /** The array reader once its header has been read as a count. */
  lemma ArrayAfterHeader(s: string, pos: nat, items: seq<Value>, h: nat, q: nat)
    requires ReadLength(s, pos) == Ok((|items|, h)) && DecodesItems(s, h, items, q)
    ensures ParseArray(s, pos) == Ok((Array(items), q))
  {
  }

  lemma ArrayDispatch(s: string, pos: nat, r: Result<(Value, nat)>)
    requires pos < |s| && s[pos] == '*' && ParseArray(s, pos + 1) == r
    ensures ParseValue(s, pos) == r
  {
  }

  /** A whole array frame: marker, header, then items the item reader accepts. */
  lemma ArrayAt(s: string, pos: nat, items: seq<Value>, q: nat)
    requires Occurs(s, pos, "*" + IntToString(|items|) + CRLF)
    requires DecodesItems(s, pos + 1 + |IntToString(|items|)| + 2, items, q)
    ensures Decodes(s, pos, Array(items), q)
  {
    var h := IntToString(|items|) + CRLF;
    assert "*" + IntToString(|items|) + CRLF == ['*'] + h;
    MarkerAt(s, pos, '*', h);
    ArrayHeaderAt(s, pos + 1, items, q);
    ArrayDispatch(s, pos, Ok((Array(items), q)));
  }

  lemma ParseEncodedSimpleString(v: Value, s: string, pos: nat)
    requires v.SimpleString? && NoCrlf(v.text) && Occurs(s, pos, Encode(v))
    ensures Decodes(s, pos, v, pos + |Encode(v)|)
  {
    assert Encode(v) == ['+'] + (v.text + CRLF);
    MarkerAt(s, pos, '+', v.text + CRLF);
    LineReadersAt(s, pos + 1, v.text);
    Dispatch(s, pos);
  }

  lemma ParseEncodedError(v: Value, s: string, pos: nat)
    requires v.ErrorReply? && NoCrlf(v.text) && Occurs(s, pos, Encode(v))
    ensures Decodes(s, pos, v, pos + |Encode(v)|)
  {
    assert Encode(v) == ['-'] + (v.text + CRLF);
    MarkerAt(s, pos, '-', v.text + CRLF);
    LineReadersAt(s, pos + 1, v.text);
    Dispatch(s, pos);
  }

  lemma ParseEncodedInteger(v: Value, s: string, pos: nat)
    requires v.Integer? && Occurs(s, pos, Encode(v))
    ensures Decodes(s, pos, v, pos + |Encode(v)|)
  {
    assert Encode(v) == [':'] + (IntToString(v.n) + CRLF);
    MarkerAt(s, pos, ':', IntToString(v.n) + CRLF);
    IntegerAt(s, pos + 1, v.n);
    Dispatch(s, pos);
  }

  lemma ParseEncodedNull(v: Value, s: string, pos: nat)
    requires v.Null? && Occurs(s, pos, Encode(v))
    ensures Decodes(s, pos, v, pos + |Encode(v)|)
  {
    assert IntToString(-1) == "-1";
    assert Encode(v) == ['$'] + (IntToString(-1) + CRLF);
    MarkerAt(s, pos, '$', IntToString(-1) + CRLF);
    NullBulkAt(s, pos + 1);
    Dispatch(s, pos);
  }

  /** A bulk frame is its marker, its length header and its payload line. */
  lemma EncodedBulk(d: string)
    ensures Encode(Bulk(d)) == ['$'] + (IntToString(|d|) + CRLF) + (d + CRLF)
    ensures |Encode(Bulk(d))| == 1 + |IntToString(|d|)| + 2 + |d| + 2
  {
  }

  lemma BulkDispatch(s: string, pos: nat)
    requires pos < |s| && s[pos] == '$'
    ensures ParseValue(s, pos) == ParseBulkString(s, pos + 1)
  {
  }

  lemma ParseEncodedBulk(v: Value, s: string, pos: nat)
    requires v.Bulk? && Occurs(s, pos, Encode(v))
    ensures Decodes(s, pos, v, pos + |Encode(v)|)
  {
    var d := v.data;
    var h := IntToString(|d|) + CRLF;
    EncodedBulk(d);
    OccursConcat(s, pos, ['$'] + h, d + CRLF);
    MarkerAt(s, pos, '$', h);
    BulkPayloadAt(s, pos + 1, d);
    BulkDispatch(s, pos);
  }

  /** The frame of `v` stands in `s` at `pos`, spelled out frame by frame:
      an array's header, then each of its items where the one before ends. */
  predicate EncodedAt(s: string, pos: nat, v: Value)
    decreases v, 1
  {
    match v
    case Array(items) =>
      Occurs(s, pos, "*" + IntToString(|items|) + CRLF) &&
      ItemsEncodedAt(s, pos + 1 + |IntToString(|items|)| + 2, items)
    case _ => Occurs(s, pos, Encode(v))
  }

  predicate ItemsEncodedAt(s: string, pos: nat, items: seq<Value>)
    decreases items, 0
  {
    if items == [] then pos <= |s|
    else (EncodedAt(s, pos, items[0]) && ItemsEncodedAt(s, pos + |Encode(items[0])|, items[1..]))
  }

  /** ItemsEncodedAt as one fact: a non-recursive frame for the contracts of
      the lemmas below, so that the solver unfolds the recursion only where a
      proof asks for it. */
  predicate ItemsWritten(s: string, pos: nat, items: seq<Value>) {
    ItemsEncodedAt(s, pos, items)
  }

  /** The length of an encoded array: marker, header, items. */
  lemma EncodedArrayLength(items: seq<Value>)
    ensures |Encode(Array(items))| == 1 + |IntToString(|items|)| + 2 + |EncodeItems(items)|
  {
  }

  lemma EncodedItemsLength(items: seq<Value>)
    requires items != []
    ensures |EncodeItems(items)| == |Encode(items[0])| + |EncodeItems(items[1..])|
  {
  }

  /** An encoding standing in the text can be read frame by frame. */
  lemma {:induction false} OccursEncodedAt(v: Value, s: string, pos: nat)
    requires Occurs(s, pos, Encode(v))
    ensures EncodedAt(s, pos, v)
    decreases v, 1
  {
    if v.Array? {
      var h := "*" + IntToString(|v.items|) + CRLF;
      assert Encode(v) == h + EncodeItems(v.items);
      OccursConcat(s, pos, h, EncodeItems(v.items));
      OccursItemsEncodedAt(v.items, s, pos + |h|);
    }
  }

  lemma {:induction false} OccursItemsEncodedAt(items: seq<Value>, s: string, pos: nat)
    requires Occurs(s, pos, EncodeItems(items))
    ensures ItemsEncodedAt(s, pos, items)
    decreases items, 0
  {
    if items != [] {
      OccursConcat(s, pos, Encode(items[0]), EncodeItems(items[1..]));
      OccursEncodedAt(items[0], s, pos);
      OccursItemsEncodedAt(items[1..], s, pos + |Encode(items[0])|);
    }
  }

  /** Decoding reads back every well-formed value the encoder wrote, wherever
      it stands in the input, and stops right after it. */
  lemma {:induction false} ParseEncoded(v: Value, s: string, pos: nat)
    requires WellFormed(v) && EncodedAt(s, pos, v)
    ensures Decodes(s, pos, v, pos + |Encode(v)|)
    decreases v, 2
  {
    if v.SimpleString? {
      ParseEncodedSimpleString(v, s, pos);
    } else if v.ErrorReply? {
      ParseEncodedError(v, s, pos);
    } else if v.Integer? {
      ParseEncodedInteger(v, s, pos);
    } else if v.Null? {
      ParseEncodedNull(v, s, pos);
    } else if v.Bulk? {
      ParseEncodedBulk(v, s, pos);
    } else {
      ParseEncodedArray(v, s, pos);
    }
  }

  lemma {:induction false} ParseEncodedArray(v: Value, s: string, pos: nat)
    requires v.Array? && WellFormed(v) && EncodedAt(s, pos, v)
    ensures Decodes(s, pos, v, pos + |Encode(v)|)
    decreases v, 1
  {
    var items := v.items;
    ParseEncodedItems(items, s, pos + 1 + |IntToString(|items|)| + 2);
    EncodedArrayLength(items);
    ArrayAt(s, pos, items, pos + |Encode(v)|);
  }

  /** ParseItems reads one value and then the rest. */
  lemma ItemsCons(s: string, pos: nat, items: seq<Value>, p: nat, q: nat)
    requires items != [] && Decodes(s, pos, items[0], p) && DecodesItems(s, p, items[1..], q)
    ensures DecodesItems(s, pos, items, q)
  {
    assert [items[0]] + items[1..] == items;
  }

  lemma {:induction false} ParseEncodedItems(items: seq<Value>, s: string, pos: nat)
    requires forall i :: 0 <= i < |items| ==> WellFormed(items[i])
    requires pos <= |s| && ItemsWritten(s, pos, items)
    ensures DecodesItems(s, pos, items, pos + |EncodeItems(items)|)
    decreases items, 1
  {
    if items != [] {
      EncodedItemsLength(items);
      ParseEncoded(items[0], s, pos);
      ParseEncodedItemsCons(items, s, pos);
    }
  }

  /** The items after the first, once the first has been read back. */
  lemma {:induction false} ParseEncodedItemsCons(items: seq<Value>, s: string, pos: nat)
    requires items != [] && forall i :: 0 <= i < |items| ==> WellFormed(items[i])
    requires Decodes(s, pos, items[0], pos + |Encode(items[0])|)
    requires ItemsWritten(s, pos + |Encode(items[0])|, items[1..])
    ensures DecodesItems(s, pos, items, pos + |Encode(items[0])| + |EncodeItems(items[1..])|)
    decreases items, 0
  {
    var p := pos + |Encode(items[0])|;
    ParseEncodedItems(items[1..], s, p);
    ItemsCons(s, pos, items, p, p + |EncodeItems(items[1..])|);
  }

  /** Round trip: a chunk holding one encoded well-formed value decodes to it,
      so re-encoding what was decoded gives back exactly that chunk. */
  lemma RoundTrip(v: Value)
    requires WellFormed(v)
    ensures Parse(Encode(v)) == Ok(v)
    ensures Encode(v) != [] && IsMarker(Encode(v)[0])
  {
    assert Encode(v)[0..|Encode(v)|] == Encode(v);
    OccursEncodedAt(v, Encode(v), 0);
    ParseEncoded(v, Encode(v), 0);
  }

  /** A line read by ReadLine holds no CRLF, since it ends at the first one. */
  lemma ReadLineNoCrlf(s: string, pos: nat)
    ensures ReadLine(s, pos).Ok? ==> NoCrlf(ReadLine(s, pos).value.0)
  {
    if ReadLine(s, pos).Ok? {
      var e := FindCrlf(s, pos).value;
      var t := s[pos..e];
      forall i | 0 <= i < |t|
        ensures !CrlfAt(t, i)
      {
        if CrlfAt(t, i) {
          FindCrlfFirst(s, pos);
          assert CrlfAt(s, pos + i);
        }
      }
    }
  }

  /** Every decoded value is well formed: simple strings and errors never
      hold a CRLF, because their text ends at the first one. */
  lemma {:induction false} ParsedWellFormed(s: string, pos: nat)
    requires pos <= |s|
    ensures ParseValue(s, pos).Ok? ==> WellFormed(ParseValue(s, pos).value.0)
    decreases |s| - pos, 0
  {
    if pos < |s| {
      if s[pos] == '+' || s[pos] == '-' {
        ReadLineNoCrlf(s, pos + 1);
      } else if s[pos] == '*' && ReadLength(s, pos + 1).Ok? {
        var (n, q) := ReadLength(s, pos + 1).value;
        ParsedItemsWellFormed(s, q, ElementCount(n));
        assert ParseValue(s, pos) == ParseArray(s, pos + 1);
        if n != -1 && ParseItems(s, q, ElementCount(n)).Ok? {
          assert ParseArray(s, pos + 1).value.0 == Array(ParseItems(s, q, ElementCount(n)).value.0);
        }
      }
    }
  }

  lemma {:induction false} ParsedItemsWellFormed(s: string, pos: nat, n: nat)
    requires pos <= |s|
    ensures ParseItems(s, pos, n).Ok? ==>
              forall i :: 0 <= i < n ==> WellFormed(ParseItems(s, pos, n).value.0[i])
    decreases |s| - pos, 1, n
  {
    if n > 0 && ParseItems(s, pos, n).Ok? {
      ParsedWellFormed(s, pos);
      var p := ParseValue(s, pos).value.1;
      ParsedItemsWellFormed(s, p, n - 1);
    }
  }

  /** Decoding, encoding and decoding again gives the same value: the encoder
      writes a canonical form of whatever the decoder accepted. */
  lemma ReencodeStable(s: string)
    ensures Parse(s).Ok? ==> Parse(Encode(Parse(s).value)) == Parse(s)
  {
    if Parse(s).Ok? {
      ParsedWellFormed(s, 0);
      RoundTrip(Parse(s).value);
    }
  }

  /** The null array is decoded as Null and re-encoded as the null bulk
      string, so it is the one frame of canonical shape that does not survive
      a round trip. */
  lemma NullArrayBecomesNullBulk()
    ensures Parse("*-1\r\n") == Ok(Null)
    ensures Encode(Null) == "$-1\r\n" && Encode(Null) != "*-1\r\n"
  {
    var s := "*-1\r\n";
    assert IntToString(-1) == "-1";
    assert s[1..5] == IntToString(-1) + CRLF;
    ReadLengthAt(s, 1, -1);
  }

  /** A frame must start with one of the five markers; any other character,
      or no character at all, is a decode error. */
  lemma UnknownMarkerFails(s: string, pos: nat)
    requires pos <= |s|
    requires pos == |s| || !IsMarker(s[pos])
    ensures ParseValue(s, pos) == Err(UnknownType)
  {
  }

  /** A bulk string takes exactly as many payload characters as its header
      declares, followed by CRLF. */
  lemma BulkTakesDeclaredLength(s: string, pos: nat)
    requires pos <= |s|
    requires ParseValue(s, pos).Ok? && ParseValue(s, pos).value.0.Bulk?
    ensures var (v, q) := ParseValue(s, pos).value;
            s[pos] == '$' && ReadLength(s, pos + 1).Ok? &&
            var (n, h) := ReadLength(s, pos + 1).value;
            n == |v.data| && q == h + n + 2 && v.data == s[h..h + n] && CrlfAt(s, h + n)
  {
  }

  /** An array yields exactly as many elements as its header declares. */
  lemma ArrayTakesDeclaredCount(s: string, pos: nat)
    requires pos <= |s|
    requires ParseValue(s, pos).Ok? && ParseValue(s, pos).value.0.Array?
    ensures s[pos] == '*' && ReadLength(s, pos + 1).Ok?
    ensures |ParseValue(s, pos).value.0.items| == ElementCount(ReadLength(s, pos + 1).value.0)
  {
    Dispatch(s, pos);
  }
}

=== FILE: resp_as_written.dfy ===
/** The decoder as RESPParser writes it, built on the line and header readers
    of module Resp (ReadLine, ReadLength and the simple-string, error and
    integer readers), which fail on a missing CRLF, a header without digits
    and a bulk length below -1 where RESPParser goes on. It is kept beside
    the corrected decoder in module Resp to exhibit where the two part ways:

    - the bulk reader takes `str.substring(pos, pos + length)`, which stops
      quietly at the end of the chunk, and then moves the cursor
      `length + 2` further without looking at the two characters it skips;
    - `parse` returns the first frame and ignores whatever follows it.

    The cursor may end up past the end of the chunk; reading a type marker
    there finds none. */
module RespAsWritten {
  import opened Optional
  import opened JsText
  import Resp

  function Min(a: int, b: int): int {
    if a <= b then a else b
  }

  /** How much of the chunk is left from `pos` on (none once past its end). */
  function Remaining(s: string, pos: nat): nat {
    if pos >= |s| then 0 else |s| - pos
  }

  /** The bulk reader as written: the payload is clamped to the chunk and the
      terminator is skipped unchecked. */
  function ParseBulkString(s: string, pos: nat): (r: Resp.Result<(Resp.Value, nat)>)
    ensures r.Ok? ==> pos + 2 <= r.value.1
    ensures r.Ok? ==> Resp.ReadLength(s, pos).Ok?
    ensures r.Ok? && r.value.0.Null? ==> Resp.ReadLength(s, pos).value.0 == -1 && r.value.1 == Resp.ReadLength(s, pos).value.1
    ensures r.Ok? && r.value.0.Bulk? ==>
              var (n, q) := Resp.ReadLength(s, pos).value;
              n >= 0 && r.value.1 == q + n + 2 && r.value.0.data == s[q..Min(q + n, |s|)]
  {
    match Resp.ReadLength(s, pos)
    case Err(e) => Resp.Err(e)
    case Ok((n, q)) =>
      if n == -1 then Resp.Ok((Resp.Null, q))
      else if n < -1 then Resp.Err(Resp.BadLength)
      else Resp.Ok((Resp.Bulk(s[q..Min(q + n, |s|)]), q + n + 2))
  }

  /** The array reader as written: the null array is Null, any other
      header is followed by that many well-formed values. */
  function ParseArray(s: string, pos: nat): (r: Resp.Result<(Resp.Value, nat)>)
    ensures r.Ok? ==> pos + 2 <= r.value.1
    ensures r.Ok? ==> Resp.ReadLength(s, pos).Ok?
    ensures r.Ok? && r.value.0.Null? ==> Resp.ReadLength(s, pos).value.0 == -1
    ensures r.Ok? && !r.value.0.Null? ==>
              r.value.0.Array? && |r.value.0.items| == Resp.ElementCount(Resp.ReadLength(s, pos).value.0)
    ensures r.Ok? ==> Resp.WellFormed(r.value.0)
    decreases Remaining(s, pos), 0, 0
  {
    match Resp.ReadLength(s, pos)
    case Err(e) => Resp.Err(e)
    case Ok((n, q)) =>
      if n == -1 then Resp.Ok((Resp.Null, q))
      else
        match ParseItems(s, q, Resp.ElementCount(n))
        case Err(e) => Resp.Err(e)
        case Ok((items, q')) => Resp.Ok((Resp.Array(items), q'))
  }

  /** `n` values read one after the other. */
  function ParseItems(s: string, pos: nat, n: nat): (r: Resp.Result<(seq<Resp.Value>, nat)>)
    ensures r.Ok? ==> pos <= r.value.1
    ensures r.Ok? ==> |r.value.0| == n && forall i :: 0 <= i < n ==> Resp.WellFormed(r.value.0[i])
    decreases Remaining(s, pos), 1, n
  {
    if n == 0 then Resp.Ok(([], pos))
    else
      match ParseValue(s, pos)
      case Err(e) => Resp.Err(e)
      case Ok((v, p)) =>
        match ParseItems(s, p, n - 1)
        case Err(e) => Resp.Err(e)
        case Ok((vs, q)) => Resp.Ok(([v] + vs, q))
  }

  /** One value, chosen by the type marker at `pos`. */
  function ParseValue(s: string, pos: nat): (r: Resp.Result<(Resp.Value, nat)>)
    ensures r.Ok? ==> pos < r.value.1
    ensures r.Ok? ==> pos < |s| && Resp.IsMarker(s[pos]) && Resp.WellFormed(r.value.0)
    decreases Remaining(s, pos), 0, 1
  {
    if pos >= |s| then Resp.Err(Resp.UnknownType)
    else if s[pos] == '+' then Resp.ReadLineNoCrlf(s, pos + 1); Resp.ParseSimpleString(s, pos + 1)
    else if s[pos] == '-' then Resp.ReadLineNoCrlf(s, pos + 1); Resp.ParseError(s, pos + 1)
    else if s[pos] == ':' then Resp.ParseInteger(s, pos + 1)
    else if s[pos] == '$' then ParseBulkString(s, pos + 1)
    else if s[pos] == '*' then ParseArray(s, pos + 1)
    else Resp.Err(Resp.UnknownType)
  }

  /** `parse` as written: the first frame, whatever follows it. What it
      accepts starts with a type marker and is well formed, so it encodes
      to a frame that decodes back. */
  function Parse(s: string): (r: Resp.Result<Resp.Value>)
    ensures r.Ok? ==> s != [] && Resp.IsMarker(s[0]) && Resp.WellFormed(r.value)
    ensures r.Ok? <==> ParseValue(s, 0).Ok?
  {
    match ParseValue(s, 0)
    case Err(e) => Resp.Err(e)
    case Ok((v, _)) => Resp.Ok(v)
  }

  /** Wherever the corrected decoder accepts a frame, the decoder as written
      reads the same value and stops at the same place: the correction only
      turns some of its answers into errors. */
  lemma {:induction false} AgreesOnValue(s: string, pos: nat)
    requires pos <= |s|
    ensures Resp.ParseValue(s, pos).Ok? ==> ParseValue(s, pos) == Resp.ParseValue(s, pos)
    decreases |s| - pos, 0
  {
    if pos < |s| && s[pos] == '*' && Resp.ReadLength(s, pos + 1).Ok? {
      var (n, q) := Resp.ReadLength(s, pos + 1).value;
      if n != -1 {
        AgreesOnItems(s, q, Resp.ElementCount(n));
      }
    }
  }

  lemma {:induction false} AgreesOnItems(s: string, pos: nat, n: nat)
    requires pos <= |s|
    ensures Resp.ParseItems(s, pos, n).Ok? ==> ParseItems(s, pos, n) == Resp.ParseItems(s, pos, n)
    decreases |s| - pos, 1, n
  {
    if n > 0 && Resp.ParseItems(s, pos, n).Ok? {
      AgreesOnValue(s, pos);
      var p := Resp.ParseValue(s, pos).value.1;
      AgreesOnItems(s, p, n - 1);
    }
  }

  /** Every chunk the corrected decoder accepts decodes to the same value as
      written. */
  lemma CorrectionOnlyRejects(s: string)
    ensures Resp.Parse(s).Ok? ==> Parse(s) == Resp.Parse(s)
  {
    AgreesOnValue(s, 0);
  }

  /** A header declaring 10 payload characters with only 3 in the chunk: as
      written, the 3 are taken as the whole payload, and re-encoding writes a
      header of 3, so a partial reply is forwarded as a complete, different
      one. The corrected decoder reports it as truncated. */
  lemma TruncatedBulkAccepted()
    ensures Parse("$10\r\nabc") == Resp.Ok(Resp.Bulk("abc"))
    ensures Resp.Encode(Resp.Bulk("abc")) == "$3\r\nabc\r\n"
    ensures Resp.Parse("$10\r\nabc") == Resp.Err(Resp.Truncated)
  {
    var s := "$10\r\nabc";
    assert Resp.FindCrlf(s, 3) == Some(3);
    assert Resp.FindCrlf(s, 2) == Some(3);
    assert Resp.FindCrlf(s, 1) == Some(3);
    assert s[1..3] == "10";
    ParseIntOfDigits("10");
    assert Resp.ReadLength(s, 1) == Resp.Ok((10, 5));
    assert s[5..8] == "abc";
    assert IntToString(3) == "3";
  }

  /** The two characters after a bulk payload are skipped whatever they are:
      as written "XY" passes for the terminator, the corrected decoder
      reports the missing CRLF. */
  lemma UncheckedTerminatorAccepted()
    ensures Parse("$3\r\nabcXY") == Resp.Ok(Resp.Bulk("abc"))
    ensures Resp.Parse("$3\r\nabcXY") == Resp.Err(Resp.MissingCrlf)
  {
    var s := "$3\r\nabcXY";
    assert Resp.FindCrlf(s, 2) == Some(2);
    assert Resp.FindCrlf(s, 1) == Some(2);
    assert s[1..2] == "3";
    ParseIntOfDigits("3");
    assert Resp.ReadLength(s, 1) == Resp.Ok((3, 4));
    assert s[4..7] == "abc";
  }

  /** Two replies in one chunk: as written only the first is decoded, so
      the second is lost when the first is re-encoded and forwarded. The
      corrected decoder reports the trailing data. */
  lemma TrailingReplyIgnored()
    ensures Parse("+OK\r\n+OK\r\n") == Resp.Ok(Resp.SimpleString("OK"))
    ensures Resp.Encode(Resp.SimpleString("OK")) == "+OK\r\n"
    ensures Resp.Parse("+OK\r\n+OK\r\n") == Resp.Err(Resp.TrailingData)
  {
    var s := "+OK\r\n+OK\r\n";
    assert Resp.FindCrlf(s, 3) == Some(3);
    assert Resp.FindCrlf(s, 2) == Some(3);
    assert Resp.FindCrlf(s, 1) == Some(3);
    assert s[1..3] == "OK";
  }
}

=== FILE: resp_cursor.dfy ===
/** The corrected RESP codec of module Resp in the source's imperative form:
    methods that read a frame by advancing a shared cursor object (the
    `{ pos }` object every reader of RESPParser receives), an array reader
    that pushes one element per loop turn, and an encoder that appends item
    encodings to an accumulator. Like Resp, and unlike RESPParser, the bulk
    reader rejects a truncated payload and a missing CRLF, and Parse rejects
    data after the first frame.
    Each method is proved against the functions of module Resp: what it
    returns, and where it leaves the cursor. A thrown error is an `Err`;
    after one the cursor is left wherever the method stopped, as it is when
    the source throws. */
module RespCursor {
  import opened Optional
  import opened JsText
  import Resp

  /** The cursor the readers share: the position of the next unread
      character of the chunk. */
  class ParseState {
    var pos: nat

    constructor (start: nat)
      ensures pos == start
    {
      pos := start;
    }
  }

  /** The value of a reader's result, without the position it ends at. */
  function Outcome<T>(r: Resp.Result<(T, nat)>): Resp.Result<T> {
    match r
    case Err(e) => Resp.Err(e)
    case Ok((x, _)) => Resp.Ok(x)
  }

  /** The items already read, in front of what the rest of the reading gives. */
  function Prepend(items: seq<Resp.Value>, r: Resp.Result<(seq<Resp.Value>, nat)>): Resp.Result<(seq<Resp.Value>, nat)> {
    match r
    case Err(e) => Resp.Err(e)
    case Ok((vs, q)) => Resp.Ok((items + vs, q))
  }

  lemma PrependNothing(r: Resp.Result<(seq<Resp.Value>, nat)>)
    ensures Prepend([], r) == r
  {
    if r.Ok? {
      assert [] + r.value.0 == r.value.0;
    }
  }

  lemma PrependTwice(a: seq<Resp.Value>, b: seq<Resp.Value>, r: Resp.Result<(seq<Resp.Value>, nat)>)
    ensures Prepend(a, Prepend(b, r)) == Prepend(a + b, r)
  {
    if r.Ok? {
      assert a + (b + r.value.0) == (a + b) + r.value.0;
    }
  }

  /** The line up to the next CRLF; the cursor moves past the CRLF. */
  method ReadLine(str: string, state: ParseState) returns (r: Resp.Result<string>)
    modifies state
    ensures r == Outcome(Resp.ReadLine(str, old(state.pos)))
    ensures r.Ok? ==> state.pos == Resp.ReadLine(str, old(state.pos)).value.1
  {
    var found := Resp.FindCrlf(str, state.pos);
    if found.None? {
      return Resp.Err(Resp.MissingCrlf);
    }
    var end := found.value;
    r := Resp.Ok(str[state.pos..end]);
    state.pos := end + 2;
  }

  /** A header line read with parseInt; the cursor moves past its CRLF. */
  method ReadLength(str: string, state: ParseState) returns (r: Resp.Result<int>)
    modifies state
    ensures r == Outcome(Resp.ReadLength(str, old(state.pos)))
    ensures r.Ok? ==> state.pos == Resp.ReadLength(str, old(state.pos)).value.1
  {
    var line := ReadLine(str, state);
    if line.Err? {
      return Resp.Err(line.error);
    }
    var length := ParseInt(line.value);
    if length.None? {
      return Resp.Err(Resp.BadNumber);
    }
    r := Resp.Ok(length.value);
  }

  method ParseSimpleString(str: string, state: ParseState) returns (r: Resp.Result<Resp.Value>)
    modifies state
    ensures r == Outcome(Resp.ParseSimpleString(str, old(state.pos)))
    ensures r.Ok? ==> state.pos == Resp.ParseSimpleString(str, old(state.pos)).value.1
  {
    var line := ReadLine(str, state);
    if line.Err? {
      return Resp.Err(line.error);
    }
    r := Resp.Ok(Resp.SimpleString(line.value));
  }

  method ParseError(str: string, state: ParseState) returns (r: Resp.Result<Resp.Value>)
    modifies state
    ensures r == Outcome(Resp.ParseError(str, old(state.pos)))
    ensures r.Ok? ==> state.pos == Resp.ParseError(str, old(state.pos)).value.1
  {
    var line := ReadLine(str, state);
    if line.Err? {
      return Resp.Err(line.error);
    }
    r := Resp.Ok(Resp.ErrorReply(line.value));
  }

  method ParseInteger(str: string, state: ParseState) returns (r: Resp.Result<Resp.Value>)
    modifies state
    ensures r == Outcome(Resp.ParseInteger(str, old(state.pos)))
    ensures r.Ok? ==> state.pos == Resp.ParseInteger(str, old(state.pos)).value.1
  {
    var n := ReadLength(str, state);
    if n.Err? {
      return Resp.Err(n.error);
    }
    r := Resp.Ok(Resp.Integer(n.value));
  }

  /** A bulk string: the header, then exactly that many payload characters,
      then CRLF; or Null for the length -1. */
  method ParseBulkString(str: string, state: ParseState) returns (r: Resp.Result<Resp.Value>)
    modifies state
    ensures r == Outcome(Resp.ParseBulkString(str, old(state.pos)))
    ensures r.Ok? ==> state.pos == Resp.ParseBulkString(str, old(state.pos)).value.1
  {
    var header := ReadLength(str, state);
    if header.Err? {
      return Resp.Err(header.error);
    }
    var length := header.value;
    if length == -1 {
      return Resp.Ok(Resp.Null);
    }
    if length < -1 {
      return Resp.Err(Resp.BadLength);
    }
    if state.pos + length + 2 > |str| {
      return Resp.Err(Resp.Truncated);
    }
    if !Resp.CrlfAt(str, state.pos + length) {
      return Resp.Err(Resp.MissingCrlf);
    }
    r := Resp.Ok(Resp.Bulk(str[state.pos..state.pos + length]));
    state.pos := state.pos + length + 2;
  }

  /** An array: the count header, then one frame per loop turn, pushed in
      wire order; or Null for the count -1. */
  method ParseArray(str: string, state: ParseState) returns (r: Resp.Result<Resp.Value>)
    requires state.pos <= |str|
    modifies state
    ensures r == Outcome(Resp.ParseArray(str, old(state.pos)))
    ensures r.Ok? ==> state.pos == Resp.ParseArray(str, old(state.pos)).value.1
    decreases |str| - state.pos, 0
  {
    var header := ReadLength(str, state);
    if header.Err? {
      return Resp.Err(header.error);
    }
    var length := header.value;
    if length == -1 {
      return Resp.Ok(Resp.Null);
    }
    ghost var start := state.pos;
    ghost var count := Resp.ElementCount(length);
    var items: seq<Resp.Value> := [];
    var i := 0;
    PrependNothing(Resp.ParseItems(str, start, count));
    while i < length
      invariant 0 <= i <= count && |items| == i
      invariant start <= state.pos <= |str|
      invariant Resp.ParseItems(str, start, count) == Prepend(items, Resp.ParseItems(str, state.pos, count - i))
      decreases length - i
    {
      ghost var p := state.pos;
      var item := ParseValue(str, state);
      if item.Err? {
        return Resp.Err(item.error);
      }
      ghost var rest := Resp.ParseItems(str, state.pos, count - i - 1);
      assert Resp.ParseItems(str, p, count - i) == Prepend([item.value], rest);
      PrependTwice(items, [item.value], rest);
      items := items + [item.value];
      i := i + 1;
    }
    assert items + [] == items;
    r := Resp.Ok(Resp.Array(items));
  }

  /** One frame: the cursor moves past the type marker, and the reader the
      marker names reads the rest. */
  method ParseValue(str: string, state: ParseState) returns (r: Resp.Result<Resp.Value>)
    requires state.pos <= |str|
    modifies state
    ensures r == Outcome(Resp.ParseValue(str, old(state.pos)))
    ensures r.Ok? ==> state.pos == Resp.ParseValue(str, old(state.pos)).value.1
    decreases |str| - state.pos, 1
  {
    if state.pos == |str| {
      return Resp.Err(Resp.UnknownType);
    }
    var marker := str[state.pos];
    state.pos := state.pos + 1;
    if marker == '+' {
      r := ParseSimpleString(str, state);
    } else if marker == '-' {
      r := ParseError(str, state);
    } else if marker == ':' {
      r := ParseInteger(str, state);
    } else if marker == '$' {
      r := ParseBulkString(str, state);
    } else if marker == '*' {
      r := ParseArray(str, state);
    } else {
      r := Resp.Err(Resp.UnknownType);
    }
  }

  /** A whole chunk: a fresh cursor at 0, one frame, and nothing after it. */
  method Parse(str: string) returns (r: Resp.Result<Resp.Value>)
    ensures r == Resp.Parse(str)
  {
    var state := new ParseState(0);
    r := ParseValue(str, state);
    if r.Ok? && state.pos != |str| {
      r := Resp.Err(Resp.TrailingData);
    }
  }

  /** The encodings of the first `i + 1` items are those of the first `i`
      followed by that of item `i`. */
  lemma {:induction false} EncodeItemsSnoc(items: seq<Resp.Value>, i: nat)
    requires i < |items|
    ensures Resp.EncodeItems(items[..i + 1]) == Resp.EncodeItems(items[..i]) + Resp.Encode(items[i])
  {
    if i > 0 {
      EncodeItemsSnoc(items[1..], i - 1);
      assert items[1..][..i] == items[..i + 1][1..];
      assert items[1..][..i - 1] == items[..i][1..];
      assert items[1..][i - 1] == items[i];
    }
  }

  /** The wire text of a value; an array's items are appended one by one to
      the header. */
  method Encode(v: Resp.Value) returns (out: string)
    ensures out == Resp.Encode(v)
    decreases v
  {
    match v
    case SimpleString(t) => out := "+" + t + Resp.CRLF;
    case ErrorReply(t) => out := "-" + t + Resp.CRLF;
    case Integer(n) => out := ":" + IntToString(n) + Resp.CRLF;
    case Null => out := "$-1" + Resp.CRLF;
    case Bulk(d) => out := "$" + IntToString(|d|) + Resp.CRLF + d + Resp.CRLF;
    case Array(items) =>
      out := "*" + IntToString(|items|) + Resp.CRLF;
      ghost var header := out;
      for i := 0 to |items|
        invariant out == header + Resp.EncodeItems(items[..i])
      {
        var part := Encode(items[i]);
        EncodeItemsSnoc(items, i);
        out := out + part;
      }
      assert items[..|items|] == items;
  }
}

=== FILE: translator.dfy ===
/** Address translation (translateAddress, translateResponse): the bulk
    strings of a reply that name an internal address are rewritten to the
    external address the mapping gives; everything else is kept. */
module Translator {
  import opened Optional
  import opened JsText
  import opened JsObject
  import Resp

  /** `s.split(':')[0]`: the host part of a `host:port` text. */
  function HostPart(s: string): (h: string)
    ensures ':' !in h
  {
    Split(s, ':')[0]
  }

  /** The host part is the text before the first ':', or all of it. */
  lemma HostPartSpec(s: string)
    ensures HostPart(s) == s[..|HostPart(s)|]
    ensures ':' in s ==> |HostPart(s)| < |s| && s[|HostPart(s)|] == ':'
    ensures ':' !in s ==> HostPart(s) == s
  {
    SplitAtFirst(s, ':');
    if ':' in s {
      var i :| 0 <= i < |s| && s[i] == ':';
      assert IndexOf(s, ':').Some?;
    }
  }

  /** The external host of the first entry, in table order, whose internal
      host part is `addr`: an answer is the external host of an entry whose
      host part matches, and there is none only when no entry's matches. */
  function FindHost(m: Entries, addr: string): (r: Option<string>)
    ensures r.None? ==> forall i :: 0 <= i < |m| ==> HostPart(m[i].0) != addr
    ensures r.Some? ==> exists j :: 0 <= j < |m| && HostPart(m[j].0) == addr && r == Some(HostPart(m[j].1))
  {
    if m == [] then None
    else if HostPart(m[0].0) == addr then Some(HostPart(m[0].1))
    else
      assert forall i :: 0 <= i < |m| - 1 ==> m[1..][i] == m[i + 1];
      FindHost(m[1..], addr)
  }

  /** The first-match scan returns the external host of the first entry
      whose internal host part is `addr`. */
  lemma {:induction false} FindHostFirst(m: Entries, addr: string, j: nat)
    requires j < |m| && HostPart(m[j].0) == addr
    requires forall i :: 0 <= i < j ==> HostPart(m[i].0) != addr
    ensures FindHost(m, addr) == Some(HostPart(m[j].1))
  {
    if j > 0 {
      FindHostFirst(m[1..], addr, j - 1);
    }
  }

  /** An exact key with a non-empty value (`mapping[addr]` is truthy). */
  predicate ExactHit(m: Entries, addr: string) {
    Get(m, addr).Some? && Get(m, addr).value != ""
  }

  /** What translateAddress returns for `addr`. It differs from `addr` only
      when `addr` is a key of the mapping or the host part of one. */
  function AddressFor(m: Entries, addr: string): (r: string)
    ensures r != addr ==> HasKey(m, addr) || exists i :: 0 <= i < |m| && HostPart(m[i].0) == addr
  {
    if ExactHit(m, addr) then Get(m, addr).value
    else
      match FindHost(m, addr)
      case Some(h) => h
      case None => addr
  }

  /** translateAddress: the exact lookup, then the scan over the entries in
      order that stops at the first whose internal host part is `addr`. */
  method TranslateAddress(m: Entries, addr: string) returns (r: string)
    ensures r == AddressFor(m, addr)
  {
    var direct := Get(m, addr);
    if direct.Some? && direct.value != "" {
      return direct.value;
    }
    for i := 0 to |m|
      invariant FindHost(m, addr) == FindHost(m[i..], addr)
    {
      var (internal, external) := m[i];
      if HostPart(internal) == addr {
        return HostPart(external);
      }
      assert m[i..][1..] == m[i + 1..];
    }
    return addr;
  }

  /** An exact key with a non-empty value wins. */
  lemma ExactMatchWins(m: Entries, addr: string, v: string)
    requires Get(m, addr) == Some(v) && v != ""
    ensures AddressFor(m, addr) == v
  {
  }

  /** With no exact hit, the first entry whose host part is `addr` gives
      the external host alone, without its port. */
  lemma HostMatchFirst(m: Entries, addr: string, j: nat)
    requires !ExactHit(m, addr)
    requires j < |m| && HostPart(m[j].0) == addr
    requires forall i :: 0 <= i < j ==> HostPart(m[i].0) != addr
    ensures AddressFor(m, addr) == HostPart(m[j].1)
  {
    FindHostFirst(m, addr, j);
  }

  /** With neither an exact hit nor a host match, the address is unchanged. */
  lemma NoMatchUnchanged(m: Entries, addr: string)
    requires !ExactHit(m, addr)
    requires forall i :: 0 <= i < |m| ==> HostPart(m[i].0) != addr
    ensures AddressFor(m, addr) == addr
  {
  }

  /** Matches are on whole tokens: an address with a port that is not itself
      a key is left unchanged, even when a key starts with it or it starts
      with a key. */
  lemma UnmappedAddressUnchanged(m: Entries, addr: string)
    requires ':' in addr && !HasKey(m, addr)
    ensures AddressFor(m, addr) == addr
  {
  }

  /** `internal-12:6379` is not rewritten by a mapping of `internal-1:6379`:
      it is neither that key nor its host part. */
  lemma LongerHostKept()
    ensures AddressFor([("internal-1:6379", "localhost:7001")], "internal-12:6379") == "internal-12:6379"
  {
    var m := [("internal-1:6379", "localhost:7001")];
    var other := "internal-12:6379";
    assert other[11] == ':';
    assert |other| != |m[0].0|;
    assert !HasKey(m, other);
    UnmappedAddressUnchanged(m, other);
  }

  /** The key `internal-1:6379` itself is rewritten to its external address. */
  lemma MappedKeyRewritten()
    ensures AddressFor([("internal-1:6379", "localhost:7001")], "internal-1:6379") == "localhost:7001"
  {
    var m := [("internal-1:6379", "localhost:7001")];
    assert Get(m, "internal-1:6379") == Some("localhost:7001");
  }

  /** The bare host `internal-1` is rewritten to the external host alone. */
  lemma MappedHostRewritten()
    ensures AddressFor([("internal-1:6379", "localhost:7001")], "internal-1") == "localhost"
  {
    assert "internal-1:6379" == "internal-1" + ":" + "6379";
    assert "localhost:7001" == "localhost" + ":" + "7001";
    BareHostOfOnlyEntry("internal-1", "6379", "localhost", "7001");
  }

  /** A key assigned twice keeps one entry, holding the later value, so the
      exact lookup and the scan by host name both answer with the later
      value: `h:1 -> a:1` then `h:1 -> b:2` sends `h:1` to `b:2` and `h`
      to `b`. */
  lemma RepeatedKeyLaterValue()
    ensures Put(Put([], "h:1", "a:1"), "h:1", "b:2") == [("h:1", "b:2")]
    ensures AddressFor(Put(Put([], "h:1", "a:1"), "h:1", "b:2"), "h:1") == "b:2"
    ensures AddressFor(Put(Put([], "h:1", "a:1"), "h:1", "b:2"), "h") == "b"
  {
    var m := Put(Put([], "h:1", "a:1"), "h:1", "b:2");
    assert m == [("h:1", "b:2")];
    assert Get(m, "h:1") == Some("b:2");
    assert "h" + ":" + "1" == "h:1" && "b" + ":" + "2" == "b:2";
    BareHostOfOnlyEntry("h", "1", "b", "2");
  }

  /** In a one-entry mapping `h:p -> e:q`, the bare host `h` becomes `e`. */
  lemma BareHostOfOnlyEntry(h: string, p: string, e: string, q: string)
    requires ':' !in h && ':' !in e
    ensures AddressFor([(h + ":" + p, e + ":" + q)], h) == e
  {
    var m := [(h + ":" + p, e + ":" + q)];
    HostPartOf(h, p);
    HostPartOf(e, q);
    assert !HasKey(m, h) by {
      assert |m[0].0| != |h|;
    }
    FindHostFirst(m, h, 0);
  }

  /** The host part of `h:rest` is `h` when `h` has no ':'. */
  lemma HostPartOf(h: string, rest: string)
    requires ':' !in h
    ensures HostPart(h + ":" + rest) == h
  {
    SplitFirstPiece(h, ':', rest);
  }

  /** translateResponse: bulk strings are translated and replaced when the
      translation differs, arrays are translated element by element, and
      every other value is returned as it is. The result has the shape of
      the reply: arrays keep their length and element order, and simple
      strings, errors, integers and nulls are kept as they are. */
  function Translate(v: Resp.Value, m: Entries): (r: Resp.Value)
    ensures SameShape(v, r)
    decreases v
  {
    match v
    case Bulk(d) =>
      var a := AddressFor(m, d);
      if a != d then Resp.Bulk(a) else v
    case Array(items) =>
      Resp.Array(seq(|items|, i requires 0 <= i < |items| => Translate(items[i], m)))
    case _ => v
  }

  /** Two values of the same shape: the same kind, and for arrays the same
      length with elements of the same shape, position by position. Only the
      text of a bulk string may differ. */
  predicate SameShape(a: Resp.Value, b: Resp.Value)
    decreases a
  {
    match a
    case Bulk(_) => b.Bulk?
    case Array(xs) =>
      b.Array? && |b.items| == |xs| && forall i :: 0 <= i < |xs| ==> SameShape(xs[i], b.items[i])
    case _ => b == a
  }

  /** A bulk string becomes the translation of its text; a replacement is
      made only when the translation differs from the text. */
  lemma BulkTranslated(d: string, m: Entries)
    ensures Translate(Resp.Bulk(d), m) == Resp.Bulk(AddressFor(m, d))
    ensures AddressFor(m, d) == d ==> Translate(Resp.Bulk(d), m) == Resp.Bulk(d)
  {
  }

  /** Element `i` of a translated array is the translation of element `i`. */
  lemma TranslateArray(items: seq<Resp.Value>, m: Entries, i: nat)
    requires i < |items|
    ensures Translate(Resp.Array(items), m).Array?
    ensures |Translate(Resp.Array(items), m).items| == |items|
    ensures Translate(Resp.Array(items), m).items[i] == Translate(items[i], m)
  {
  }

  /** Translation keeps a reply well formed, so its encoding decodes back. */
  lemma {:induction false} TranslateWellFormed(v: Resp.Value, m: Entries)
    requires Resp.WellFormed(v)
    ensures Resp.WellFormed(Translate(v, m))
    decreases v
  {
    if v.Array? {
      forall i | 0 <= i < |v.items|
        ensures Resp.WellFormed(Translate(v, m).items[i])
      {
        TranslateWellFormed(v.items[i], m);
      }
    }
  }

  /** An empty mapping translates nothing. */
  lemma {:induction false} EmptyMappingKeepsReply(v: Resp.Value)
    ensures Translate(v, []) == v
    decreases v
  {
    if v.Array? {
      forall i | 0 <= i < |v.items|
        ensures Translate(v, []).items[i] == v.items[i]
      {
        EmptyMappingKeepsReply(v.items[i]);
      }
    }
  }
}
